=== FILE: README.md ===
# Secret Santa games: a Dafny model

This project models the logic of a small Secret Santa web application. An
administrator creates a game from a list of names. The application shuffles the
roster and gives every participant a receiver. Each participant then gets a
link to a page showing the receiver. The model covers the four pieces of the
application that are logic rather than rendering or I/O:

- **The assignment** (`src/App.tsx`), in modules `Shuffle` and `App`:
  - the Fisher–Yates `shuffleArray`, driven by an explicit sequence of draws;
  - `handleCreateGame`, which appends a game whose participant `i` gives to
    `shuffled[(i + 1) % n]`;
  - `handleDeleteGame`;
  - the game/participant/receiver lookup of the participant page.
- **The roster parser** of the game form (`src/pages/CreateGame.tsx`), in module
  `Roster`: split on line breaks, trim, drop blank lines, and refuse fewer than
  two names.
- **The games API** (`backend/games/index.py`), in module `Backend`:
  - method and path dispatch;
  - the `path` query parameter and the request-context path;
  - participant rows turned into participants, with empty receiver ids read as none;
  - the participant/receiver lookup;
  - the 200/201/404/405 answers with their headers;
  - inserting a created game.
- **The participant links** (`src/pages/GameDetail.tsx`), in module `Links`:
  - the link format;
  - the all-links text;
  - the receiver note on each card;
  - the round trip from a link back through the API's router.

`Types` holds the shared records of `src/types/game.ts` and the first-match
searches (`Array.find`, Python's `next(...)`). `Strings` gives the string
operations the semantics of the languages involved, on strings of Unicode
scalar values (a JavaScript string holding a lone surrogate has no counterpart):

- `split` with a one-character separator;
- `join`;
- JavaScript's `trim`, with the ECMAScript whitespace and line-terminator set;
- Python's `startswith`;
- Python's `replace`, which replaces every non-overlapping occurrence from
  left to right.

Randomness is a parameter. `c[i]` is the index drawn when the shuffle's counter
is `i`, so `c[i] <= i`. The ids that `crypto.randomUUID` would produce are also
parameters: distinct and, where links are concerned, non-empty and free of
`/`. Each claim holds for every admissible choice of these.

**The assignment is a bijection but not a derangement.** `handleCreateGame`
gives participant `i` of the *original* roster the receiver at position
`(i + 1) % n` of the *shuffled* roster. Every participant gives exactly once and
receives exactly once (`App.CreatedAssignmentIsBijection`), but nobody is kept
from drawing themself:

- two participants can each be assigned to themself (`App.TwoParticipantsCanSelfGift`);
- self-gifting is reachable for every roster size (`App.SelfGiftReachable`).

## Model

| member | source | states |
|---|---|---|
| Types.FindParticipant | src/App.tsx:85 | a participant is found iff one has the id, and the one found is the first in the roster with that id |
| Types.Find | src/App.tsx:84-86 | the search behind every `find` and `next(...)`: something is found iff an element has the key, and it is the first element with that key |
| Types.IndexOf | src/App.tsx:84-86 | the index found holds the key and no earlier element does; nothing is found iff no element holds the key |
| Types.FindGame | src/App.tsx:84 | a game is found iff one has the id, and the one found is the first in the list with that id |
| Types.ReceiverOf | src/App.tsx:86 | a receiver is found iff there is a giver with a receiver id and some participant has that id; the receiver found is the first participant carrying that id |
| Types.FindAppendedGame | src/App.tsx:66 | a game appended under an id no earlier game has is the one found for that id |
| Types.FindDistinct | src/App.tsx:85 | with distinct ids, the search for a participant's id finds that participant |
| Shuffle.Swap | src/App.tsx:40 | the two positions are exchanged, every other position is kept, and the elements are a permutation of the input |
| Shuffle.Shuffled | src/App.tsx:36-43 | the result of `shuffleArray` for the draws `c`: a permutation of the input, the Fisher–Yates loop run over the whole list; `Shuffle.FisherYates`, `Shuffle.ShuffleArray` and `Shuffle.EveryOrderReachable` state its properties |
| Shuffle.FisherYates | src/App.tsx:38-41 | the swap loop for any admissible draws keeps the length and yields a permutation (same multiset) of its input |
| Shuffle.ShuffleArray | src/App.tsx:36-43 | the in-place loop on a fresh copy computes the shuffle for the given draws, and its result is a permutation of the input |
| Shuffle.SwapInPlace | src/App.tsx:40 | the array afterwards is the old contents with the two positions exchanged |
| Shuffle.FisherYatesReadsPrefix | src/App.tsx:38-41 | the shuffle depends only on the draws for the counters it runs |
| Shuffle.ReachableFrom | src/App.tsx:38-41 | from a state whose first `k` elements are a permutation of the target's and whose rest agrees, some admissible draws reach the target |
| Shuffle.EveryOrderReachable | src/App.tsx:38-41 | every permutation of the input is the result of some admissible draws (completeness of Fisher–Yates) |
| App.NewParticipants | src/App.tsx:47-50 | one participant per name, in order, with the given ids, the given names and no receiver |
| App.AssignReceivers | src/App.tsx:52-55 | ids and names are kept, and every participant gets a receiver id that is an id of the shuffled roster |
| App.SuccessorIsModulo | src/App.tsx:54 | the circular successor used by the model is `handleCreateGame`'s `(index + 1) % shuffled.length` for every position |
| App.AssignedReceiverId | src/App.tsx:53-55 | giver `i` gets exactly the id at position `(i + 1) % n` of the shuffled roster |
| App.NewGame | src/App.tsx:45-64 | the new game has the form's id, name, rules and emoji, one participant per name with the generated ids, and a receiver id for each |
| App.CreateGame | src/App.tsx:45-69 | exactly one game is appended and the earlier games are unchanged; it has the given id, name, rules and emoji, one participant per name with the given ids, and every participant has a receiver id |
| App.AssignedReceiversInRoster | src/App.tsx:53-55 | every receiver id is the id of a participant of the same roster |
| App.AssignedEveryoneReceives | src/App.tsx:52-55 | every participant is the receiver of some giver |
| App.AssignedNoOneReceivesTwice | src/App.tsx:52-55 | no two givers share a receiver when the shuffled ids are distinct |
| App.PermutationKeepsIdsDistinct | src/App.tsx:52 | a permutation of a roster with distinct ids has distinct ids |
| App.OccursOnce | src/App.tsx:47-50 | in a roster with distinct ids each participant occurs exactly once |
| App.AssignmentIsBijection | src/App.tsx:52-55 | for distinct ids and any permutation as the shuffle, the assignment is a bijection on the ids |
| App.NewGameIsBijection | src/App.tsx:45-64 | the game built from distinct ids has distinct participant ids and a bijective assignment |
| App.CreatedAssignmentIsBijection | src/App.tsx:45-66 | every game created from distinct ids, for every admissible draw, carries a bijective assignment |
| App.TwoParticipantsCanSelfGift | src/App.tsx:52-55 | with two participants and the draw that swaps them, each is assigned to themself |
| App.SingleParticipantGivesToSelf | src/App.tsx:53-55 | a single participant is always assigned to themself |
| App.SelfGiftReachable | src/App.tsx:52-55 | for every non-empty roster some admissible draws make the first participant their own receiver |
| App.GiverReceives | src/App.tsx:53-55 | giver `i` of the created game receives the id at position `(i + 1) % n` of the shuffled roster |
| App.DeleteGame | src/App.tsx:71-73 | a game is kept iff it was in the list and its id differs from the deleted one |
| App.DeleteGameKeepsOrder | src/App.tsx:72 | deleting acts on each part of the list independently, so the remaining games keep their order |
| App.DeleteAbsentGame | src/App.tsx:72 | deleting an id no game has leaves the list unchanged |
| App.DeleteGameIdempotent | src/App.tsx:72 | deleting twice equals deleting once |
| App.ParticipantRoute | src/App.tsx:82-89 | the page gets a game iff one has the id; a participant iff that game has one with the id; a receiver iff that participant's receiver id names a participant of the game; each is the first match `find` returns |
| App.AppendedGamePage | src/App.tsx:84-86 | for a game appended under a fresh id with distinct ids and receivers inside its roster, a participant's page shows that game, that participant and a receiver with the participant's receiver id |
| App.CreatedGameParticipantPage | src/App.tsx:45-89 | after a game is created under a fresh id, the page of each of its participants shows the game, the participant and their receiver |
| Roster.ParseRoster | src/pages/CreateGame.tsx:25-28 | there are at most (number of line breaks + 1) entries, each non-empty and without whitespace at either end |
| Roster.TrimAll | src/pages/CreateGame.tsx:27 | one entry per line, in order, each that line trimmed |
| Roster.NonEmpty | src/pages/CreateGame.tsx:28 | the result is no longer than the entries and holds no empty entry; `Roster.NonEmptyMembers` says which entries are kept |
| Roster.NonEmptyMembers | src/pages/CreateGame.tsx:28 | a string is kept iff it was an entry and is non-empty: only blank entries are dropped |
| Roster.NonEmptyKeepsTrimmed | src/pages/CreateGame.tsx:27-28 | filtering trimmed entries leaves trimmed entries |
| Roster.NonEmptyAppend | src/pages/CreateGame.tsx:28 | the filter acts on the parts of a list independently, keeping order |
| Roster.ParseSingleLine | src/pages/CreateGame.tsx:25-28 | a single line gives its trimmed text, or nothing if it is blank |
| Roster.ParseAppend | src/pages/CreateGame.tsx:25-28 | two texts joined by a line break parse as the first text's entries followed by the second's |
| Roster.TrimAllAppend | src/pages/CreateGame.tsx:27 | trimming the lines of two lists one after the other equals trimming each list |
| Roster.ParseLines | src/pages/CreateGame.tsx:25-28 | the lines of a text parse to exactly the non-blank trimmed lines, in order |
| Roster.DuplicatesKept | src/pages/CreateGame.tsx:25-28 | the same name on two lines gives two entries |
| Roster.HandleSubmit | src/pages/CreateGame.tsx:22-44 | `onCreate` is called once if at least two names were parsed and never otherwise; the error is shown iff fewer than two; the call gets the form's fields and the parsed list |
| Roster.Accepted | src/pages/CreateGame.tsx:39-43 | an accepted submission makes exactly one `onCreate` call, with the names, and shows no error |
| Roster.Refused | src/pages/CreateGame.tsx:30-37 | a refused submission shows the error and makes no `onCreate` call |
| Strings.Split | src/pages/CreateGame.tsx:26 | there is one more piece than there are separators, and no piece contains the separator |
| Strings.SplitWithoutSeparator | src/pages/CreateGame.tsx:26 | a string without the separator is a single piece |
| Strings.SplitAtSeparator | src/pages/CreateGame.tsx:26 | splitting at a separator splits the two sides independently |
| Strings.Join | src/pages/GameDetail.tsx:28 | the join of no parts is empty; otherwise it starts with the first part and has at least one separator per neighbouring pair |
| Strings.CountAppend | src/pages/GameDetail.tsx:28 | occurrences of a character in a concatenation add up |
| Strings.JoinSplit | src/pages/GameDetail.tsx:28 | joining the pieces of a split restores the string |
| Strings.SplitJoin | src/pages/GameDetail.tsx:28 | splitting a join of separator-free pieces restores the pieces |
| Strings.ReplaceAll | backend/games/index.py:106 | a string without the pattern's first character is unchanged |
| Strings.TrimStart | src/pages/CreateGame.tsx:27 | the result is a suffix, everything removed is whitespace, and it does not start with whitespace |
| Strings.TrimEnd | src/pages/CreateGame.tsx:27 | the result is a prefix, everything removed is whitespace, and it does not end with whitespace |
| Strings.Trim | src/pages/CreateGame.tsx:27 | the result is no longer than the input and has no whitespace at either end |
| Strings.IsWhitespace | src/pages/CreateGame.tsx:27 | the characters `trim` removes are U+0009–U+000D, U+0020, U+00A0, U+1680, U+2000–U+200A, U+2028, U+2029, U+202F, U+205F, U+3000 and U+FEFF (ECMAScript WhiteSpace and LineTerminator). The contract states that within ASCII these are exactly space, tab, line feed, vertical tab, form feed and carriage return; that no letter or digit is one; and that none lies above U+FEFF |
| Strings.StartsWith | backend/games/index.py:46 | Python's `startswith`: the prefix is no longer than the string, and it agrees with the string at every position of the prefix |
| Strings.StartsWithIsPrefix | backend/games/index.py:105 | a string starts with a prefix iff it is that prefix followed by some string |
| Strings.TrimIsInfix | src/pages/CreateGame.tsx:27 | the trimmed string is the input between a whitespace-only prefix and a whitespace-only suffix |
| Strings.TrimIdempotent | src/pages/CreateGame.tsx:27 | trimming twice equals trimming once |
| Backend.EffectivePath | backend/games/index.py:37-44 | a non-empty `path` query parameter wins; otherwise the request-context path is used; the path is empty iff both are missing or empty |
| Backend.GetRoute | backend/games/index.py:46-50 | a `/participant/` path with at least four segments gives segments 2 and 3 as the ids, and with fewer it falls through to not allowed; a `/games/` path gives the path with every `/games/` removed; any other path lists all games |
| Backend.Dispatch | backend/games/index.py:16-36 | OPTIONS is the preflight, POST creates, GET routes by its path, any other method is not allowed, and a missing method counts as GET |
| Backend.MissingMethodIsGet | backend/games/index.py:16 | an event without a method is handled exactly as a GET of its path |
| Backend.NormalizeReceiverId | backend/games/index.py:77 | a missing or empty receiver id becomes none, and any other is kept |
| Backend.ToParticipant | backend/games/index.py:74-78 | a row becomes a participant with its id and name and the normalised receiver id |
| Backend.RosterOf | backend/games/index.py:66-78 | at most one participant per row, and none has an empty receiver id |
| Backend.RosterOfAppend | backend/games/index.py:66-70 | selecting a game's rows acts on each part of the table independently |
| Backend.GameRowById | backend/games/index.py:52-56 | a row is found iff one has the id, and the one found is in the table with that id |
| Backend.FirstWithId | backend/games/index.py:80-81 | a participant is found iff one has the id (never for a missing id), and it is the first in the roster with that id |
| Backend.LookupParticipant | backend/games/index.py:80-81 | the participant is the first with the path's id, none iff no one has it; the receiver is the first participant carrying that participant's receiver id, and is found iff there is one |
| Backend.LookupMatchesFrontEnd | backend/games/index.py:80-81 | the backend finds the same participant and receiver as the front end's participant page |
| Backend.HandleGet | backend/games/index.py:46-196 | every GET answer allows any origin; 405 iff the path is a short participant path; 404 iff a participant or game path names a missing game; 200 otherwise; a participant path is answered by the participant answer of its two ids, a game path by the game answer of its id, any other path by the list of all games |
| Backend.ParticipantAnswer | backend/games/index.py:52-103 | 404 iff the game row is missing; otherwise 200 with that game row, the first participant of the game's roster with the id, and that participant's receiver |
| Backend.GameAnswer | backend/games/index.py:105-153 | 404 iff the game row is missing; otherwise 200 with that game row and the game's participant rows as participants |
| Backend.AllGameViews | backend/games/index.py:155-186 | one entry per game row, newest first, each with that game's participant rows as participants |
| Backend.CreatedGameListedFirst | backend/games/index.py:155-159 | a game just created heads the list of all games |
| Backend.Insert | backend/games/index.py:198-216 | one game row is appended, defaulting the emoji to a wrapped present; the earlier participant rows are kept and are followed by exactly the new game's rows |
| Backend.NewRows | backend/games/index.py:212-216 | one row per submitted participant, in order, with its id, the new game's id, its name and its receiver id as submitted |
| Backend.Handle | backend/games/index.py:16-234 | the handler raises iff a POST has no usable body; every answer allows any origin; OPTIONS answers 200 with the preflight headers; a GET answers for its effective path; a POST answers 201 with the id and stores exactly the inserted rows; only POST changes the tables; 405 iff the route is not allowed |
| Backend.ShortParticipantPathNotAllowed | backend/games/index.py:46-48 | a GET of a participant path with fewer than four segments is answered 405 |
| Backend.DeleteRequestNotAllowed | backend/games/index.py:229-234 | a DELETE request is answered 405 and changes nothing |
| Backend.GamesPathDropsEveryOccurrence | backend/games/index.py:105-106 | `/games/x/games/y` names game `xy`: every occurrence is removed |
| Backend.GamePathRoundTrip | backend/games/index.py:105-106 | the game path of a `/`-free id names exactly that id |
| Backend.CreatedGameIsServed | backend/games/index.py:105-153 | after a game is created under a `/`-free id that no game row or participant row carries yet, its game path answers 200 with the stored game and exactly the submitted participants, in the order the participant rows are kept |
| Backend.RosterOfAllRows | backend/games/index.py:66-78 | rows that all belong to the game are selected one for one |
| Links.LinkPath | src/pages/GameDetail.tsx:17 | the path starts with `/participant/` and has the length of prefix, ids and separator |
| Links.ParticipantLink | src/pages/GameDetail.tsx:17 | the link is the origin followed by the link path |
| Links.LinkLine | src/pages/GameDetail.tsx:27 | the line is the participant's name, a colon and a space, then exactly the participant's link |
| Links.LinkLines | src/pages/GameDetail.tsx:26-27 | one line per participant, in roster order, each `name: link` |
| Links.AllLinks | src/pages/GameDetail.tsx:25-28 | the text is empty for no participants; otherwise it starts with the first participant's line and has at least one line break per neighbouring pair |
| Links.AllLinksLines | src/pages/GameDetail.tsx:26-28 | when nothing holds a line break, the all-links text splits back into exactly the lines |
| Links.LinkPathSegments | src/pages/GameDetail.tsx:17 | the path of `/`-free ids splits into "", `participant` and the two ids |
| Links.LinkRoutesBack | src/pages/GameDetail.tsx:17 | the API's router sends a link path back to the participant page of the same two ids |
| Links.LinkRequestRoutesBack | src/pages/GameDetail.tsx:17 | a GET whose `path` parameter is a link path is dispatched to the same two ids |
| Links.LinkRequestAnswered | src/pages/GameDetail.tsx:17 | the whole GET request for a link path is answered, with the database unchanged, by the backend's participant answer for the same two ids |
| Links.NoteFor | src/pages/GameDetail.tsx:107-109 | the note is shown iff the receiver id is set and non-empty; it has a name iff a participant has that id, and then it is the name of the first participant with that id |
| Links.NoteMatchesReceiver | src/pages/GameDetail.tsx:107-109 | a shown note names the receiver the participant page resolves |
| Links.CreatedGameLinksWork | src/pages/GameDetail.tsx:105-109 | in a created game, each participant's link routes back to their ids; their page shows them and a receiver; their card names that receiver |

## Left out

- Storage: the database is a value holding the two tables. The SQL, the
  connection, commits, and closing the cursor on the error paths are not
  modelled.
- Creation times are not modelled. The games table is kept in insertion order,
  and `ORDER BY created_at DESC` is modelled as the reverse of that order. This
  assumes that a later insert never gets an earlier or equal creation time;
  games created within the same timestamp may be listed in another order.
- The participant queries have no `ORDER BY`. The model returns a game's
  participant rows in insertion order, which the database does not promise.
  So "in order" in `Backend.CreatedGameIsServed` rests on this assumption.
- JSON encoding and decoding are not modelled. A create request whose body is
  missing, is not JSON, or lacks `id`, `name`, `rules` or `participants` is
  modelled as `body == None`, and the handler raises. The same holds for a
  submitted participant without `id` or `name`. The handler raises there only
  after the game row is inserted, but before the commit, so nothing is stored.
- Database errors on insert are not modelled, for example a duplicate id. An
  insert always appends.
- The fetch wrappers of the front end (`src/lib/api.ts`) are network I/O. They
  are used to choose the request shapes in `Links.LinkRequestRoutesBack`,
  `Links.LinkRequestAnswered` and `Backend.DeleteRequestNotAllowed`.
- React state and rendering are not modelled. This covers the toasts' wording,
  the clipboard, `window.location` (the origin is the parameter `baseUrl`) and
  the URL matching of the front-end router. The participant page's lookup is
  modelled; its URL matching is not.
- `Math.random` is replaced by the draw sequence. `crypto.randomUUID` is
  replaced by id parameters, with distinctness as a precondition. `new Date()`
  is left out. Uniformity of the shuffle is a probability claim and is not
  stated.
- The snowfall decoration's random floats are not modelled.
- The login check, and the Admin, Login and Participant pages, are
  presentation only.
- Shuffle.ShuffleArray takes its input as a sequence value. Because of this,
  "the argument is unchanged" holds by construction and is not a separate
  ensures clause. The method copies the value into a fresh array and swaps in
  place, as `shuffleArray` does.
- Strings.ReplaceAll: its contract only states that the string is unchanged
  when the pattern cannot occur. Its full behaviour is pinned down by
  `Backend.GamesPathDropsEveryOccurrence` and `Backend.GamePathRoundTrip`
  rather than by a general characterisation.
- Backend.Handle: fields of the event with a non-string value are not
  modelled, for example a numeric `httpMethod`.

=== FILE: app.dfy ===
/** The game logic of src/App.tsx: creating a game with its gift assignment
    (`handleCreateGame`), deleting games (`handleDeleteGame`) and the lookup
    behind the participant page (`ParticipantRoute`). The application's game
    list is passed in and returned instead of living in React state; the ids
    `crypto.randomUUID` would produce and the draws of the shuffle are
    arguments. */
module App {
  import opened Types
  import opened Shuffle

  /** One participant per name, in order, with the given ids and no receiver yet. */
  function NewParticipants(names: seq<string>, ids: seq<string>): (r: seq<Participant>)
    requires |ids| == |names|
    ensures |r| == |names| && Ids(r) == ids
    ensures forall i :: 0 <= i < |r| ==> r[i].name == names[i] && r[i].receiverId.None?
  {
    seq(|names|, i requires 0 <= i < |names| => Participant(ids[i], names[i], None))
  }

  /** Giver `i`, the participant at position `i` of the ORIGINAL roster, gets
      as receiver the participant at position `(i + 1) % n` of the shuffled
      roster. */
  function AssignReceivers(ps: seq<Participant>, shuffled: seq<Participant>): (r: seq<Participant>)
    requires |shuffled| == |ps|
    ensures |r| == |ps| && Ids(r) == Ids(ps)
    ensures forall i :: 0 <= i < |r| ==> r[i].name == ps[i].name
    ensures forall i :: 0 <= i < |r| ==> r[i].receiverId.Some? && r[i].receiverId.value in Ids(shuffled)
  {
    seq(|ps|, i requires 0 <= i < |ps| =>
      ps[i].(receiverId := Some(shuffled[Successor(i, |shuffled|)].id)))
  }

  /** The game `handleCreateGame` builds from the form's fields, the
      generated ids and the shuffle's draws. */
  function NewGame(gameId: string, name: string, rules: string, emoji: string,
                   names: seq<string>, ids: seq<string>, c: seq<nat>): (g: Game)
    requires |ids| == |names| && ValidChoices(c, |names|)
    ensures g.id == gameId && g.name == name && g.rules == rules && g.emoji == emoji
    ensures |g.participants| == |names| && Ids(g.participants) == ids
    ensures forall i :: 0 <= i < |names| ==>
              g.participants[i].name == names[i] && g.participants[i].receiverId.Some?
  {
    var ps := NewParticipants(names, ids);
    Game(gameId, name, rules, emoji, AssignReceivers(ps, Shuffled(ps, c)))
  }

  /** `handleCreateGame`: the game list with the new game appended. */
  function CreateGame(games: seq<Game>, gameId: string, name: string, rules: string, emoji: string,
                      names: seq<string>, ids: seq<string>, c: seq<nat>): (r: seq<Game>)
    requires |ids| == |names| && ValidChoices(c, |names|)
    ensures |r| == |games| + 1 && r[..|games|] == games
    ensures r[|games|].id == gameId && r[|games|].name == name
    ensures r[|games|].rules == rules && r[|games|].emoji == emoji
    ensures |r[|games|].participants| == |names|
    ensures forall i :: 0 <= i < |names| ==>
              r[|games|].participants[i].id == ids[i] && r[|games|].participants[i].name == names[i]
    ensures forall i :: 0 <= i < |names| ==> r[|games|].participants[i].receiverId.Some?
  {
    games + [NewGame(gameId, name, rules, emoji, names, ids, c)]
  }

  /** The assignment of a roster is a bijection on its ids: every receiver id
      names a participant of the roster, every participant is named as a
      receiver, and no participant is named by two givers. */
  ghost predicate IsBijectiveAssignment(ps: seq<Participant>)
  {
    ReceiversInRoster(ps) && EveryoneReceives(ps) && NoOneReceivesTwice(ps)
  }

  /** Every participant has a receiver id, and it is the id of a participant
      of the same roster. */
  ghost predicate ReceiversInRoster(ps: seq<Participant>)
  {
    forall i :: 0 <= i < |ps| ==> ps[i].receiverId.Some? && ps[i].receiverId.value in Ids(ps)
  }

  /** Every participant is somebody's receiver. */
  ghost predicate EveryoneReceives(ps: seq<Participant>)
  {
    forall j :: 0 <= j < |ps| ==> Some(ps[j].id) in ReceiverIds(ps)
  }

  /** The receiver ids of a roster, in roster order. */
  function ReceiverIds(ps: seq<Participant>): (r: seq<Option<string>>)
    ensures |r| == |ps|
    ensures forall i :: 0 <= i < |ps| ==> r[i] == ps[i].receiverId
  {
    seq(|ps|, i requires 0 <= i < |ps| => ps[i].receiverId)
  }

  /** No two givers share a receiver. */
  ghost predicate NoOneReceivesTwice(ps: seq<Participant>)
  {
    forall i, k :: 0 <= i < |ps| && 0 <= k < |ps| && i != k ==> ps[i].receiverId != ps[k].receiverId
  }

  /** The position after `i` on a circle of `n` positions. */
  function Successor(i: nat, n: nat): (r: nat)
    requires i < n
    ensures r < n
  {
    if i + 1 < n then i + 1 else 0
  }

  /** The successor is `handleCreateGame`'s `(index + 1) % shuffled.length`. */
  lemma SuccessorIsModulo(i: nat, n: nat)
    requires i < n
    ensures Successor(i, n) == (i + 1) % n
  {
  }

  /** With distinct ids, each participant occurs exactly once in the roster. */
  lemma {:induction false} OccursOnce(s: seq<Participant>, x: nat)
    requires DistinctIds(s) && x < |s|
    ensures multiset(s)[s[x]] == 1
    decreases |s|
  {
    var t := s[1..];
    DistinctTail(s);
    if x == 0 {
      assert s[0] !in t by {
        forall m | 0 <= m < |t|
          ensures t[m].id != s[0].id
        {
          assert Ids(s)[m + 1] == t[m].id;
        }
      }
    } else {
      OccursOnce(t, x - 1);
      assert t[x - 1] == s[x];
      assert s[0].id != s[x].id by {
        assert Ids(s)[0] == s[0].id && Ids(s)[x] == s[x].id;
      }
    }
    assert multiset(s) == multiset{s[0]} + multiset(t) by {
      assert s == [s[0]] + t;
    }
  }

  /** Dropping the first participant keeps the ids distinct. */
  lemma DistinctTail(s: seq<Participant>)
    requires DistinctIds(s) && |s| > 0
    ensures DistinctIds(s[1..])
  {
    assert Ids(s[1..]) == Ids(s)[1..];
  }

  /** A value at two positions of a sequence occurs at least twice in it. */
  lemma OccursTwice<T>(t: seq<T>, a: nat, b: nat)
    requires a < b < |t| && t[a] == t[b]
    ensures multiset(t)[t[a]] >= 2
  {
    assert t == t[..b] + [t[b]] + t[b + 1..];
    assert t[a] in t[..b];
  }

  /** A permutation of a roster with distinct ids also has distinct ids. */
  lemma PermutationKeepsIdsDistinct(s: seq<Participant>, t: seq<Participant>)
    requires DistinctIds(s) && multiset(t) == multiset(s)
    ensures DistinctIds(t)
  {
    forall a, b | 0 <= a < |t| && 0 <= b < |t| && a != b
      ensures t[a].id != t[b].id
    {
      if t[a].id == t[b].id {
        assert t[a] in multiset(s) && t[b] in multiset(s);
        var x :| 0 <= x < |s| && s[x] == t[a];
        var y :| 0 <= y < |s| && s[y] == t[b];
        assert x == y;
        OccursOnce(s, x);
        if a < b { OccursTwice(t, a, b); } else { OccursTwice(t, b, a); }
        assert false;
      }
    }
  }

  /** For a roster with distinct ids and any permutation of it as the
      shuffled roster, the assignment is a bijection on the ids. */
  lemma AssignmentIsBijection(ps: seq<Participant>, shuffled: seq<Participant>)
    requires DistinctIds(ps)
    requires |shuffled| == |ps| && multiset(shuffled) == multiset(ps)
    ensures IsBijectiveAssignment(AssignReceivers(ps, shuffled))
  {
    AssignedReceiversInRoster(ps, shuffled);
    AssignedEveryoneReceives(ps, shuffled);
    PermutationKeepsIdsDistinct(ps, shuffled);
    AssignedNoOneReceivesTwice(ps, shuffled);
  }

  /** Each receiver id of the assignment is the id of a roster participant. */
  lemma AssignedReceiversInRoster(ps: seq<Participant>, shuffled: seq<Participant>)
    requires |shuffled| == |ps| && multiset(shuffled) == multiset(ps)
    ensures ReceiversInRoster(AssignReceivers(ps, shuffled))
  {
    var r := AssignReceivers(ps, shuffled);
    forall i | 0 <= i < |r|
      ensures r[i].receiverId.Some? && r[i].receiverId.value in Ids(r)
    {
      AssignedReceiverId(ps, shuffled, i);
      var j := MemberOfPermutation(ps, shuffled, Successor(i, |ps|));
      assert Ids(r)[j] == ps[j].id;
    }
  }

  /** Each roster participant is the receiver of some giver. */
  lemma AssignedEveryoneReceives(ps: seq<Participant>, shuffled: seq<Participant>)
    requires |shuffled| == |ps| && multiset(shuffled) == multiset(ps)
    ensures EveryoneReceives(AssignReceivers(ps, shuffled))
  {
    var n := |ps|;
    var r := AssignReceivers(ps, shuffled);
    forall j | 0 <= j < |r|
      ensures Some(r[j].id) in ReceiverIds(r)
    {
      var m := MemberOfPermutation(shuffled, ps, j);
      var i := if m == 0 then n - 1 else m - 1;
      assert r[i].receiverId == Some(shuffled[m].id);
      assert ReceiverIds(r)[i] == Some(r[j].id);
    }
  }

  /** The receiver id the assignment gives giver `i`. */
  lemma AssignedReceiverId(ps: seq<Participant>, shuffled: seq<Participant>, i: nat)
    requires |shuffled| == |ps| && i < |ps|
    ensures AssignReceivers(ps, shuffled)[i].receiverId == Some(shuffled[(i + 1) % |ps|].id)
  {
    SuccessorIsModulo(i, |ps|);
  }

  /** Every element of a permutation of `s` sits at some position of `s`. */
  lemma MemberOfPermutation<T>(s: seq<T>, t: seq<T>, m: nat) returns (j: nat)
    requires multiset(t) == multiset(s) && m < |t|
    ensures j < |s| && s[j] == t[m]
  {
    assert t[m] in multiset(s);
    j :| 0 <= j < |s| && s[j] == t[m];
  }

  /** Two different givers never share a receiver when the shuffled roster
      has distinct ids. */
  lemma AssignedNoOneReceivesTwice(ps: seq<Participant>, shuffled: seq<Participant>)
    requires |shuffled| == |ps| && DistinctIds(shuffled)
    ensures NoOneReceivesTwice(AssignReceivers(ps, shuffled))
  {
    var n := |ps|;
    var r := AssignReceivers(ps, shuffled);
    forall i, k | 0 <= i < n && 0 <= k < n && i != k
      ensures r[i].receiverId != r[k].receiverId
    {
      assert r[i].receiverId == Some(shuffled[Successor(i, n)].id);
      assert r[k].receiverId == Some(shuffled[Successor(k, n)].id);
    }
  }

  /** Every game `handleCreateGame` makes from distinct ids carries a
      bijective assignment: each participant gives to exactly one participant
      of the same game and receives from exactly one. */
  lemma CreatedAssignmentIsBijection(games: seq<Game>, gameId: string, name: string, rules: string,
                                     emoji: string, names: seq<string>, ids: seq<string>, c: seq<nat>)
    requires |ids| == |names| && ValidChoices(c, |names|)
    requires Distinct(ids)
    ensures IsBijectiveAssignment(CreateGame(games, gameId, name, rules, emoji, names, ids, c)[|games|].participants)
  {
    NewGameIsBijection(gameId, name, rules, emoji, names, ids, c);
    assert CreateGame(games, gameId, name, rules, emoji, names, ids, c)[|games|]
        == NewGame(gameId, name, rules, emoji, names, ids, c);
  }

  /** The new game built from distinct ids keeps them distinct and carries a
      bijective assignment. */
  lemma NewGameIsBijection(gameId: string, name: string, rules: string, emoji: string,
                           names: seq<string>, ids: seq<string>, c: seq<nat>)
    requires |ids| == |names| && ValidChoices(c, |names|)
    requires Distinct(ids)
    ensures var g := NewGame(gameId, name, rules, emoji, names, ids, c);
            g.id == gameId && DistinctIds(g.participants) && IsBijectiveAssignment(g.participants)
  {
    var ps := NewParticipants(names, ids);
    AssignmentIsBijection(ps, Shuffled(ps, c));
  }

  /** The assignment is NOT free of self-gifts: with participants Alice and
      Bob and the draw that swaps them, each is assigned to themself. */
  lemma TwoParticipantsCanSelfGift()
    ensures var g := CreateGame([], "game", "name", "rules", "emoji", ["Alice", "Bob"], ["a", "b"], [0, 0])[0];
            g.participants[0].receiverId == Some("a") && g.participants[1].receiverId == Some("b")
  {
    var ps := NewParticipants(["Alice", "Bob"], ["a", "b"]);
    var c: seq<nat> := [0, 0];
    assert FisherYates(ps, c, 2) == FisherYates(Swap(ps, 1, 0), c, 1);
    assert Shuffled(ps, c) == [ps[1], ps[0]];
  }

  /** A game with one participant always assigns that participant to themself. */
  lemma SingleParticipantGivesToSelf(games: seq<Game>, gameId: string, name: string, rules: string,
                                     emoji: string, names: seq<string>, ids: seq<string>, c: seq<nat>)
    requires |ids| == |names| == 1 && ValidChoices(c, 1)
    ensures CreateGame(games, gameId, name, rules, emoji, names, ids, c)[|games|].participants[0].receiverId
            == Some(ids[0])
  {
  }

  /** For every non-empty roster some admissible draws make the first
      participant their own receiver: self-gifting is reachable at every size. */
  lemma SelfGiftReachable(games: seq<Game>, gameId: string, name: string, rules: string,
                          emoji: string, names: seq<string>, ids: seq<string>) returns (c: seq<nat>)
    requires |ids| == |names| >= 1
    ensures ValidChoices(c, |names|)
    ensures CreateGame(games, gameId, name, rules, emoji, names, ids, c)[|games|].participants[0].receiverId
            == Some(ids[0])
  {
    var ps := NewParticipants(names, ids);
    var n := |ps|;
    var target := if n == 1 then ps else Swap(ps, 0, 1);
    c := EveryOrderReachable(ps, target);
    assert target[Successor(0, n)] == ps[0];
    SuccessorIsModulo(0, n);
    GiverReceives(games, gameId, name, rules, emoji, names, ids, c, 0);
  }

  /** The receiver id the created game gives its `i`-th participant. */
  lemma GiverReceives(games: seq<Game>, gameId: string, name: string, rules: string,
                      emoji: string, names: seq<string>, ids: seq<string>, c: seq<nat>, i: nat)
    requires |ids| == |names| && ValidChoices(c, |names|) && i < |names|
    ensures var ps := NewParticipants(names, ids);
            CreateGame(games, gameId, name, rules, emoji, names, ids, c)[|games|].participants[i].receiverId
            == Some(Shuffled(ps, c)[(i + 1) % |names|].id)
  {
    var ps := NewParticipants(names, ids);
    assert CreateGame(games, gameId, name, rules, emoji, names, ids, c)[|games|]
        == NewGame(gameId, name, rules, emoji, names, ids, c);
    AssignedReceiverId(ps, Shuffled(ps, c), i);
  }

  /** `handleDeleteGame`: `games.filter(g => g.id !== id)`. */
  function DeleteGame(games: seq<Game>, id: string): (r: seq<Game>)
    ensures |r| <= |games|
    ensures forall g :: g in r <==> g in games && g.id != id
  {
    if |games| == 0 then []
    else (if games[0].id != id then [games[0]] else []) + DeleteGame(games[1..], id)
  }

  /** Deleting keeps the remaining games in their original order: it acts
      on each part of a list independently. */
  lemma {:induction false} DeleteGameKeepsOrder(a: seq<Game>, b: seq<Game>, id: string)
    ensures DeleteGame(a + b, id) == DeleteGame(a, id) + DeleteGame(b, id)
    decreases |a|
  {
    if |a| > 0 {
      assert (a + b)[0] == a[0];
      assert (a + b)[1..] == a[1..] + b;
      DeleteGameKeepsOrder(a[1..], b, id);
    } else {
      assert a + b == b;
    }
  }

  /** Deleting an id no game has changes nothing. */
  lemma {:induction false} DeleteAbsentGame(games: seq<Game>, id: string)
    requires forall k :: 0 <= k < |games| ==> games[k].id != id
    ensures DeleteGame(games, id) == games
    decreases |games|
  {
    if |games| > 0 {
      DeleteAbsentGame(games[1..], id);
      assert [games[0]] + games[1..] == games;
    }
  }

  /** Deleting twice is the same as deleting once. */
  lemma DeleteGameIdempotent(games: seq<Game>, id: string)
    ensures DeleteGame(DeleteGame(games, id), id) == DeleteGame(games, id)
  {
    var r := DeleteGame(games, id);
    forall k | 0 <= k < |r|
      ensures r[k].id != id
    {
      assert r[k] in r;
    }
    DeleteAbsentGame(r, id);
  }

  /** What the participant page gets: the game, the participant and the
      participant's receiver, each possibly missing. */
  datatype ParticipantView = ParticipantView(game: Option<Game>, participant: Option<Participant>,
                                             receiver: Option<Participant>)

  /** `ParticipantRoute`: the first game with the id from the URL, the first
      of its participants with the participant id, and the first of its
      participants whose id is that participant's receiver id. */
  function ParticipantRoute(games: seq<Game>, gameId: string, participantId: string): (r: ParticipantView)
    ensures r.game.Some? <==> exists k :: 0 <= k < |games| && games[k].id == gameId
    ensures r.game.Some? ==> r.game.value in games && r.game.value.id == gameId
                             && IsFirstMatch(games, GameId, gameId, r.game.value)
    ensures r.participant.Some? <==>
              (r.game.Some? && exists k :: 0 <= k < |r.game.value.participants|
                                           && r.game.value.participants[k].id == participantId)
    ensures r.participant.Some? ==> r.participant.value in r.game.value.participants
                                    && r.participant.value.id == participantId
                                    && IsFirstMatch(r.game.value.participants, ParticipantId,
                                                    participantId, r.participant.value)
    ensures r.receiver.Some? <==>
              (r.participant.Some? && r.participant.value.receiverId.Some?
               && exists k :: 0 <= k < |r.game.value.participants|
                              && r.game.value.participants[k].id == r.participant.value.receiverId.value)
    ensures r.receiver.Some? ==> r.receiver.value in r.game.value.participants
                                 && Some(r.receiver.value.id) == r.participant.value.receiverId
                                 && IsFirstMatch(r.game.value.participants, ParticipantId,
                                                 r.participant.value.receiverId.value, r.receiver.value)
  {
    match FindGame(games, gameId)
    case None => ParticipantView(None, None, None)
    case Some(g) =>
      var p := FindParticipant(g.participants, participantId);
      ParticipantView(Some(g), p, ReceiverOf(g.participants, p))
  }

  /** After a game is created under a fresh id from distinct participant ids,
      the page of its `i`-th participant shows that game, that participant and
      a receiver, which is the participant of that game named by the
      participant's receiver id. */
  lemma CreatedGameParticipantPage(games: seq<Game>, gameId: string, name: string, rules: string,
                                   emoji: string, names: seq<string>, ids: seq<string>, c: seq<nat>, i: nat)
    requires |ids| == |names| && ValidChoices(c, |names|) && i < |names|
    requires Distinct(ids)
    requires forall k :: 0 <= k < |games| ==> games[k].id != gameId
    ensures var all := CreateGame(games, gameId, name, rules, emoji, names, ids, c);
            var v := ParticipantRoute(all, gameId, ids[i]);
            && v.game == Some(all[|games|])
            && v.participant == Some(all[|games|].participants[i])
            && v.receiver.Some?
            && Some(v.receiver.value.id) == all[|games|].participants[i].receiverId
  {
    var all := CreateGame(games, gameId, name, rules, emoji, names, ids, c);
    var g := NewGame(gameId, name, rules, emoji, names, ids, c);
    assert all == games + [g] && all[|games|] == g;
    NewGameIsBijection(gameId, name, rules, emoji, names, ids, c);
    AppendedGamePage(games, g, i);
    assert ParticipantRoute(all, gameId, ids[i]) == ParticipantRoute(games + [g], g.id, g.participants[i].id);
  }

  /** The page of the `i`-th participant of a game appended under a fresh id,
      whose roster has distinct ids and receivers inside the roster. */
  lemma AppendedGamePage(games: seq<Game>, g: Game, i: nat)
    requires forall k :: 0 <= k < |games| ==> games[k].id != g.id
    requires DistinctIds(g.participants) && ReceiversInRoster(g.participants)
    requires i < |g.participants|
    ensures var v := ParticipantRoute(games + [g], g.id, g.participants[i].id);
            && v.game == Some(g)
            && v.participant == Some(g.participants[i])
            && v.receiver.Some?
            && Some(v.receiver.value.id) == g.participants[i].receiverId
  {
    FindAppendedGame(games, g);
    FindDistinct(g.participants, i);
    var p := g.participants[i];
    assert p.receiverId.Some? && p.receiverId.value in Ids(g.participants);
    var j :| 0 <= j < |g.participants| && Ids(g.participants)[j] == p.receiverId.value;
    ReceiverFound(g.participants, p, j);
    assert ParticipantRoute(games + [g], g.id, p.id)
        == ParticipantView(Some(g), Some(p), ReceiverOf(g.participants, Some(p)));
  }

  /** A giver whose receiver id names a participant of the roster has its
      receiver found. */
  lemma ReceiverFound(ps: seq<Participant>, p: Participant, j: nat)
    requires j < |ps| && p.receiverId == Some(ps[j].id)
    ensures ReceiverOf(ps, Some(p)).Some?
  {
    assert FindParticipant(ps, ps[j].id).Some?;
  }
}

=== FILE: backend.dfy ===
/** The games API of backend/games/index.py (`handler`): how the method and
    the path of a request select what is answered, how participant rows
    become participants, and the participant/receiver lookup. The database is
    a value holding the two tables; a query is a search or a filter over
    them, and an insert appends rows. JSON encoding, the connection and the
    timestamps are left out. */
module Backend {
  import opened Types
  import opened Strings

  /** A participant as a client submits it with a new game. */
  datatype SubmittedParticipant = SubmittedParticipant(id: string, name: string, receiverId: Option<string>)

  /** The JSON body of a create request; `emoji` may be missing. */
  datatype Submission = Submission(id: string, name: string, rules: string, emoji: Option<string>,
                                   participants: seq<SubmittedParticipant>)

  /** The fields of the incoming event the handler reads. A missing field is
      `None`; `body` is `None` when the body is absent or lacks a field the
      handler indexes directly. */
  datatype Request = Request(httpMethod: Option<string>, queryPath: Option<string>,
                             contextPath: Option<string>, body: Option<Submission>)

  /** A row of the games table (the creation time is left out). */
  datatype GameRow = GameRow(id: string, name: string, rules: string, emoji: string)

  /** A row of the participants table; `receiverId` is NULL as `None`. */
  datatype ParticipantRow = ParticipantRow(id: string, gameId: string, name: string, receiverId: Option<string>)

  /** The two tables, rows in the order the queries return them. */
  datatype Db = Db(games: seq<GameRow>, participants: seq<ParticipantRow>)

  /** A game with its participants, as the handler returns it. */
  datatype GameView = GameView(game: GameRow, participants: seq<Participant>)

  /** The body of a response, before JSON encoding. */
  datatype Body =
    | NoBody
    | Error(message: string)
    | ParticipantInfo(game: GameRow, participant: Option<Participant>, receiver: Option<Participant>)
    | GameDetails(view: GameView)
    | GameList(views: seq<GameView>)
    | Created(id: string)

  datatype Response = Response(status: int, headers: map<string, string>, body: Body)

  /** What the handler does: answer (with the database afterwards), or raise. */
  datatype Outcome = Answer(response: Response, db: Db) | Raised

  /** Where a request goes. */
  datatype Route =
    | Preflight
    | ParticipantPage(gameId: string, participantId: string)
    | GamePage(gameId: string)
    | AllGames
    | CreateGame
    | NotAllowed

  const ParticipantPrefix: string := "/participant/"
  const GamesPrefix: string := "/games/"
  const DefaultEmoji: string := "\U{1F381}"
  const GameNotFound: string := "Game not found"
  const MethodNotAllowed: string := "Method not allowed"

  /** The headers of the answer to a preflight request. */
  const PreflightHeaders: map<string, string> :=
    map["Access-Control-Allow-Origin" := "*",
        "Access-Control-Allow-Methods" := "GET, POST, OPTIONS",
        "Access-Control-Allow-Headers" := "Content-Type",
        "Access-Control-Max-Age" := "86400"]

  /** The headers of every other answer. */
  const JsonHeaders: map<string, string> :=
    map["Access-Control-Allow-Origin" := "*", "Content-Type" := "application/json"]

  /** The headers let a page of any origin read the answer. */
  predicate AllowsAnyOrigin(headers: map<string, string>)
  {
    "Access-Control-Allow-Origin" in headers && headers["Access-Control-Allow-Origin"] == "*"
  }

  /** `event.get('httpMethod', 'GET')`. */
  function Method(req: Request): string
  {
    if req.httpMethod.Some? then req.httpMethod.value else "GET"
  }

  /** The path a GET request is answered for: the `path` query parameter
      when it is non-empty, otherwise the path of the request context, and the
      empty path when neither is given. */
  function EffectivePath(req: Request): (r: string)
    ensures req.queryPath.Some? && req.queryPath.value != "" ==> r == req.queryPath.value
    ensures (req.queryPath.None? || req.queryPath.value == "") && req.contextPath.Some?
            ==> r == req.contextPath.value
    ensures r == "" <==> (req.queryPath.None? || req.queryPath.value == "")
                                && (req.contextPath.None? || req.contextPath.value == "")
  {
    var query := if req.queryPath.Some? then req.queryPath.value else "";
    if query != "" then query
    else if req.contextPath.Some? && req.contextPath.value != "" then req.contextPath.value
    else query
  }

  /** The branch a GET path selects. A participant path needs at least four
      `/`-separated segments, of which the third and fourth are the ids;
      with fewer, no branch answers and the request ends as not allowed. A
      game path names the game by the path with every `/games/` removed. */
  function GetRoute(path: string): (r: Route)
    ensures r.ParticipantPage? <==> StartsWith(path, ParticipantPrefix) && Count(path, '/') >= 3
    ensures r.NotAllowed? <==> StartsWith(path, ParticipantPrefix) && Count(path, '/') < 3
    ensures r.GamePage? <==> !StartsWith(path, ParticipantPrefix) && StartsWith(path, GamesPrefix)
    ensures r.AllGames? <==> !StartsWith(path, ParticipantPrefix) && !StartsWith(path, GamesPrefix)
    ensures r.ParticipantPage? ==> r.gameId == Split(path, '/')[2] && r.participantId == Split(path, '/')[3]
    ensures r.GamePage? ==> r.gameId == ReplaceAll(path, GamesPrefix, "")
  {
    if StartsWith(path, ParticipantPrefix) then
      var parts := Split(path, '/');
      if |parts| >= 4 then ParticipantPage(parts[2], parts[3]) else NotAllowed
    else if StartsWith(path, GamesPrefix) then GamePage(ReplaceAll(path, GamesPrefix, ""))
    else AllGames
  }

  /** The route of a request: preflight, the GET branches, create, or not
      allowed for every other method. */
  function Dispatch(req: Request): (r: Route)
    ensures r.Preflight? <==> Method(req) == "OPTIONS"
    ensures r.CreateGame? <==> Method(req) == "POST"
    ensures Method(req) !in {"GET", "POST", "OPTIONS"} ==> r.NotAllowed?
    ensures Method(req) == "GET" ==> r == GetRoute(EffectivePath(req))
  {
    var m := Method(req);
    if m == "OPTIONS" then Preflight
    else if m == "GET" then GetRoute(EffectivePath(req))
    else if m == "POST" then CreateGame
    else NotAllowed
  }

  /** `str(v) if v else None`: an empty or NULL receiver id is no receiver. */
  function NormalizeReceiverId(cell: Option<string>): (r: Option<string>)
    ensures r.None? <==> cell.None? || cell.value == ""
    ensures r.Some? ==> r == cell
  {
    if cell.Some? && cell.value != "" then cell else None
  }

  /** A participant row as the handler returns it. */
  function ToParticipant(row: ParticipantRow): (r: Participant)
    ensures r.id == row.id && r.name == row.name && r.receiverId == NormalizeReceiverId(row.receiverId)
  {
    Participant(row.id, row.name, NormalizeReceiverId(row.receiverId))
  }

  /** The participants of a game: the rows with that game id, in order. */
  function RosterOf(rows: seq<ParticipantRow>, gameId: string): (r: seq<Participant>)
    ensures |r| <= |rows|
    ensures forall k :: 0 <= k < |r| ==> r[k].receiverId != Some("")
  {
    if |rows| == 0 then []
    else (if rows[0].gameId == gameId then [ToParticipant(rows[0])] else []) + RosterOf(rows[1..], gameId)
  }

  /** Selecting the rows of a game acts on each part of the table independently. */
  lemma {:induction false} RosterOfAppend(a: seq<ParticipantRow>, b: seq<ParticipantRow>, gameId: string)
    ensures RosterOf(a + b, gameId) == RosterOf(a, gameId) + RosterOf(b, gameId)
    decreases |a|
  {
    if |a| == 0 {
      assert a + b == b;
    } else {
      assert (a + b)[0] == a[0];
      assert (a + b)[1..] == a[1..] + b;
      RosterOfAppend(a[1..], b, gameId);
    }
  }

  /** The id of a game row, as a key for the search. */
  function RowId(row: GameRow): string { row.id }

  /** The game row with the id: `... WHERE id = %s` and `fetchone()`. */
  function GameRowById(games: seq<GameRow>, id: string): (r: Option<GameRow>)
    ensures r.Some? ==> r.value in games && r.value.id == id
    ensures r.None? <==> forall k :: 0 <= k < |games| ==> games[k].id != id
  {
    Find(games, RowId, id)
  }

  /** `next((p for p in participants if p['id'] == id), None)`, where `id`
      may be `None`, which no participant id equals. */
  function FirstWithId(ps: seq<Participant>, id: Option<string>): (r: Option<Participant>)
    ensures r.Some? ==> r.value in ps && Some(r.value.id) == id
    ensures r.None? <==> forall k :: 0 <= k < |ps| ==> Some(ps[k].id) != id
    ensures r.Some? ==> IsFirstMatch(ps, ParticipantId, id.value, r.value)
  {
    if id.None? then None else Find(ps, ParticipantId, id.value)
  }

  /** The handler's two `next(...)` searches over the game's participants:
      the first participant with the id from the path, and the first
      participant whose id is that participant's receiver id; no receiver
      without a participant or a receiver id. */
  function LookupParticipant(ps: seq<Participant>, participantId: string): (r: (Option<Participant>, Option<Participant>))
    ensures r.0.None? <==> forall k :: 0 <= k < |ps| ==> ps[k].id != participantId
    ensures r.0.Some? ==> r.0.value.id == participantId && IsFirstMatch(ps, ParticipantId, participantId, r.0.value)
    ensures r.1.Some? <==> r.0.Some? && r.0.value.receiverId.Some?
                           && exists k :: 0 <= k < |ps| && ps[k].id == r.0.value.receiverId.value
    ensures r.1.Some? ==> Some(r.1.value.id) == r.0.value.receiverId
                          && IsFirstMatch(ps, ParticipantId, r.0.value.receiverId.value, r.1.value)
  {
    var participant := FirstWithId(ps, Some(participantId));
    var receiver := if participant.Some? then FirstWithId(ps, participant.value.receiverId) else None;
    (participant, receiver)
  }

  /** The backend finds the same participant and receiver as the participant
      page of the front end. */
  lemma LookupMatchesFrontEnd(ps: seq<Participant>, participantId: string)
    ensures LookupParticipant(ps, participantId).0 == FindParticipant(ps, participantId)
    ensures LookupParticipant(ps, participantId).1 == ReceiverOf(ps, FindParticipant(ps, participantId))
  {
  }

  /** The answer to a GET request for a path. */
  function HandleGet(path: string, db: Db): (r: Response)
    ensures AllowsAnyOrigin(r.headers)
    ensures r.status == 405 <==> GetRoute(path).NotAllowed?
    ensures r.status == 404 <==> (GetRoute(path).ParticipantPage? || GetRoute(path).GamePage?)
                                 && GameRowById(db.games, GetRoute(path).gameId).None?
    ensures r.status == 200 <==> !(r.status in {404, 405})
    ensures GetRoute(path).ParticipantPage? ==>
              r == ParticipantAnswer(db, GetRoute(path).gameId, GetRoute(path).participantId)
    ensures GetRoute(path).GamePage? ==> r == GameAnswer(db, GetRoute(path).gameId)
    ensures GetRoute(path).AllGames? ==> r.body == GameList(AllGameViews(db))
  {
    match GetRoute(path)
    case ParticipantPage(gameId, participantId) => ParticipantAnswer(db, gameId, participantId)
    case GamePage(gameId) => GameAnswer(db, gameId)
    case AllGames => Response(200, JsonHeaders, GameList(AllGameViews(db)))
    case _ => Response(405, JsonHeaders, Error(MethodNotAllowed))
  }

  /** The answer for a participant path: not found without the game,
      otherwise the game, the participant and its receiver. */
  function ParticipantAnswer(db: Db, gameId: string, participantId: string): (r: Response)
    ensures r.headers == JsonHeaders
    ensures r.status == 404 <==> GameRowById(db.games, gameId).None?
    ensures r.status != 404 ==> r.status == 200 && r.body.ParticipantInfo?
                                && r.body.game == GameRowById(db.games, gameId).value
    ensures r.body.ParticipantInfo? ==>
              var roster := RosterOf(db.participants, gameId);
              r.body.participant == FindParticipant(roster, participantId)
              && r.body.receiver == ReceiverOf(roster, r.body.participant)
  {
    match GameRowById(db.games, gameId)
    case None => Response(404, JsonHeaders, Error(GameNotFound))
    case Some(row) =>
      var roster := RosterOf(db.participants, gameId);
      LookupMatchesFrontEnd(roster, participantId);
      var found := LookupParticipant(roster, participantId);
      Response(200, JsonHeaders, ParticipantInfo(row, found.0, found.1))
  }

  /** The answer for a game path: not found without the game, otherwise the
      game with its participants. */
  function GameAnswer(db: Db, gameId: string): (r: Response)
    ensures r.headers == JsonHeaders
    ensures r.status == 404 <==> GameRowById(db.games, gameId).None?
    ensures r.status != 404 ==> r.status == 200 && r.body.GameDetails?
                                && r.body.view.game == GameRowById(db.games, gameId).value
                                && r.body.view.participants == RosterOf(db.participants, gameId)
  {
    match GameRowById(db.games, gameId)
    case None => Response(404, JsonHeaders, Error(GameNotFound))
    case Some(row) => Response(200, JsonHeaders, GameDetails(GameView(row, RosterOf(db.participants, gameId))))
  }

  /** Every game with its participants, newest first: `ORDER BY created_at
      DESC` over a table kept in insertion order. */
  function AllGameViews(db: Db): (r: seq<GameView>)
    ensures |r| == |db.games|
    ensures forall k :: 0 <= k < |r| ==> r[k].game == db.games[|db.games| - 1 - k]
    ensures forall k :: 0 <= k < |r| ==> r[k].participants == RosterOf(db.participants, r[k].game.id)
  {
    var n := |db.games|;
    seq(n, k requires 0 <= k < n =>
      GameView(db.games[n - 1 - k], RosterOf(db.participants, db.games[n - 1 - k].id)))
  }

  /** A game just created heads the list of all games. */
  lemma CreatedGameListedFirst(db: Db, s: Submission)
    ensures var after := Insert(db, s);
            AllGameViews(after)[0].game == after.games[|db.games|]
            && AllGameViews(after)[0].game.id == s.id
  {
  }

  /** The rows a create request inserts. */
  function Insert(db: Db, s: Submission): (r: Db)
    ensures r.games == db.games + [GameRow(s.id, s.name, s.rules, if s.emoji.Some? then s.emoji.value else DefaultEmoji)]
    ensures |r.participants| == |db.participants| + |s.participants|
    ensures r.participants[..|db.participants|] == db.participants
    ensures r.participants[|db.participants|..] == NewRows(s)
  {
    var emoji := if s.emoji.Some? then s.emoji.value else DefaultEmoji;
    Db(db.games + [GameRow(s.id, s.name, s.rules, emoji)], db.participants + NewRows(s))
  }

  /** One participant row per submitted participant, in order, storing its
      receiver id as submitted (an empty one is not turned into NULL). */
  function NewRows(s: Submission): (r: seq<ParticipantRow>)
    ensures |r| == |s.participants|
    ensures forall k :: 0 <= k < |r| ==>
              r[k].id == s.participants[k].id && r[k].gameId == s.id
              && r[k].name == s.participants[k].name && r[k].receiverId == s.participants[k].receiverId
  {
    seq(|s.participants|, k requires 0 <= k < |s.participants| =>
      ParticipantRow(s.participants[k].id, s.id, s.participants[k].name, s.participants[k].receiverId))
  }

  /** `handler`: the whole request. Only a create request changes the
      database, and one without a usable body raises. */
  function Handle(req: Request, db: Db): (r: Outcome)
    ensures r.Raised? <==> Method(req) == "POST" && req.body.None?
    ensures r.Answer? ==> AllowsAnyOrigin(r.response.headers)
    ensures r.Answer? && Method(req) != "POST" ==> r.db == db
    ensures r.Answer? ==> (r.response.status == 405 <==> Dispatch(req).NotAllowed?)
    ensures r.Answer? && Method(req) == "POST" ==> r.response.status == 201
    ensures Method(req) == "OPTIONS" ==>
              r.Answer? && r.db == db && r.response.status == 200 && r.response.headers == PreflightHeaders
    ensures Method(req) == "POST" && req.body.Some? ==>
              r.Answer? && r.db == Insert(db, req.body.value) && r.response.body == Created(req.body.value.id)
    ensures Method(req) == "GET" ==> r.Answer? && r.response == HandleGet(EffectivePath(req), db)
  {
    match Dispatch(req)
    case Preflight => Answer(Response(200, PreflightHeaders, NoBody), db)
    case CreateGame =>
      if req.body.None? then Raised
      else Answer(Response(201, JsonHeaders, Created(req.body.value.id)), Insert(db, req.body.value))
    case NotAllowed => Answer(Response(405, JsonHeaders, Error(MethodNotAllowed)), db)
    case _ => Answer(HandleGet(EffectivePath(req), db), db)
  }

  /** An event without `httpMethod` is handled exactly as a GET. */
  lemma MissingMethodIsGet(req: Request, db: Db)
    requires req.httpMethod.None?
    ensures Handle(req, db) == Handle(req.(httpMethod := Some("GET")), db)
    ensures Handle(req, db) == Answer(HandleGet(EffectivePath(req), db), db)
  {
  }

  /** A participant path with fewer than four segments is answered as not
      allowed, whatever the database holds. */
  lemma ShortParticipantPathNotAllowed(req: Request, db: Db)
    requires Method(req) == "GET"
    requires StartsWith(EffectivePath(req), ParticipantPrefix) && Count(EffectivePath(req), '/') < 3
    ensures Handle(req, db).Answer? && Handle(req, db).response.status == 405
  {
  }

  /** A DELETE request, which the API client sends to remove a game, is
      answered as not allowed and removes nothing. */
  lemma DeleteRequestNotAllowed(req: Request, db: Db)
    requires req.httpMethod == Some("DELETE")
    ensures Handle(req, db) == Answer(Response(405, JsonHeaders, Error(MethodNotAllowed)), db)
  {
  }

  /** Every `/games/` is removed from a game path, not only the leading one. */
  lemma GamesPathDropsEveryOccurrence()
    ensures GetRoute("/games/x/games/y") == GamePage("xy")
  {
    var path := "/games/x/games/y";
    assert StartsWith(path, GamesPrefix);
    assert !StartsWith(path, ParticipantPrefix) by {
      assert path[..|ParticipantPrefix|][1] == 'g' != ParticipantPrefix[1];
    }
    assert path[..7] == GamesPrefix && path[7..] == "x/games/y";
    var rest := "x/games/y";
    assert rest[..7] != GamesPrefix && rest[1..] == "/games/y";
    var tail := "/games/y";
    assert tail[..7] == GamesPrefix && tail[7..] == "y";
    assert ReplaceAll("y", GamesPrefix, "") == "y";
    assert ReplaceAll(tail, GamesPrefix, "") == "y";
    assert ReplaceAll(rest, GamesPrefix, "") == "x" + ReplaceAll(tail, GamesPrefix, "");
    assert ReplaceAll(path, GamesPrefix, "") == ReplaceAll(rest, GamesPrefix, "");
  }

  /** The game path of an id without `/` names exactly that id. */
  lemma GamePathRoundTrip(id: string)
    requires '/' !in id
    ensures GetRoute(GamesPrefix + id) == GamePage(id)
  {
    var path := GamesPrefix + id;
    assert path[..|GamesPrefix|] == GamesPrefix && path[|GamesPrefix|..] == id;
    assert !StartsWith(path, ParticipantPrefix) by {
      if |ParticipantPrefix| <= |path| {
        assert path[..|ParticipantPrefix|][1] == 'g' != ParticipantPrefix[1];
      }
    }
  }

  /** A game created through the API is answered by its game path: the
      stored game with exactly the submitted participants, in order, their
      empty receiver ids read back as none. */
  lemma CreatedGameIsServed(db: Db, s: Submission)
    requires '/' !in s.id
    requires forall k :: 0 <= k < |db.games| ==> db.games[k].id != s.id
    requires forall k :: 0 <= k < |db.participants| ==> db.participants[k].gameId != s.id
    ensures var after := Insert(db, s);
            HandleGet(GamesPrefix + s.id, after).status == 200
            && HandleGet(GamesPrefix + s.id, after).body.GameDetails?
            && HandleGet(GamesPrefix + s.id, after).body.view.game == after.games[|db.games|]
            && HandleGet(GamesPrefix + s.id, after).body.view.participants == SubmittedRoster(s)
  {
    var after := Insert(db, s);
    GamePathRoundTrip(s.id);
    assert GameRowById(after.games, s.id) == Some(after.games[|db.games|]) by {
      GameRowAppended(db.games, after.games[|db.games|]);
    }
    RosterOfAppend(db.participants, NewRows(s), s.id);
    RosterOfAbsent(db.participants, s.id);
    RosterOfOwnRows(s);
  }

  /** The submitted participants as the API returns them. */
  function SubmittedRoster(s: Submission): (r: seq<Participant>)
    ensures |r| == |s.participants|
    ensures forall k :: 0 <= k < |r| ==>
              r[k].id == s.participants[k].id && r[k].name == s.participants[k].name
              && r[k].receiverId == NormalizeReceiverId(s.participants[k].receiverId)
  {
    seq(|s.participants|, k requires 0 <= k < |s.participants| =>
      Participant(s.participants[k].id, s.participants[k].name,
                  NormalizeReceiverId(s.participants[k].receiverId)))
  }

  /** A game row appended under a fresh id is the one found for it. */
  lemma GameRowAppended(games: seq<GameRow>, g: GameRow)
    requires forall k :: 0 <= k < |games| ==> games[k].id != g.id
    ensures GameRowById(games + [g], g.id) == Some(g)
  {
    var all := games + [g];
    assert RowId(all[|games|]) == g.id;
    assert forall k :: 0 <= k < |games| ==> RowId(all[k]) != g.id;
    assert IndexOf(all, RowId, g.id) == Some(|games|);
  }

  /** No row of another game is selected. */
  lemma {:induction false} RosterOfAbsent(rows: seq<ParticipantRow>, gameId: string)
    requires forall k :: 0 <= k < |rows| ==> rows[k].gameId != gameId
    ensures RosterOf(rows, gameId) == []
    decreases |rows|
  {
    if |rows| > 0 {
      RosterOfAbsent(rows[1..], gameId);
    }
  }

  /** The rows inserted for a game are all selected for it. */
  lemma RosterOfOwnRows(s: Submission)
    ensures RosterOf(NewRows(s), s.id) == SubmittedRoster(s)
  {
    RosterOfAllRows(NewRows(s), s.id);
  }

  /** Rows that all belong to the game are selected one for one. */
  lemma {:induction false} RosterOfAllRows(rows: seq<ParticipantRow>, gameId: string)
    requires forall k :: 0 <= k < |rows| ==> rows[k].gameId == gameId
    ensures |RosterOf(rows, gameId)| == |rows|
    ensures forall k :: 0 <= k < |rows| ==> RosterOf(rows, gameId)[k] == ToParticipant(rows[k])
    decreases |rows|
  {
    if |rows| > 0 {
      RosterOfAllRows(rows[1..], gameId);
    }
  }
}

=== FILE: links.dfy ===
/** The participant links of the game page, src/pages/GameDetail.tsx: the
    link of one participant (`copyLink` and the link shown on each card), the
    text of all links (`copyAllLinks`), and the receiver note under each
    participant. The page's origin is the parameter `baseUrl`; the clipboard
    and the toasts are left out. */
module Links {
  import opened Types
  import opened Strings
  import Shuffle
  import App
  import Backend

  /** The path part of a participant link. */
  function LinkPath(gameId: string, participantId: string): (r: string)
    ensures StartsWith(r, Backend.ParticipantPrefix)
    ensures |r| == |Backend.ParticipantPrefix| + |gameId| + 1 + |participantId|
  {
    var r := Backend.ParticipantPrefix + gameId + "/" + participantId;
    assert r[..|Backend.ParticipantPrefix|] == Backend.ParticipantPrefix;
    r
  }

  /** `${baseUrl}/participant/${game.id}/${participantId}`. */
  function ParticipantLink(baseUrl: string, gameId: string, participantId: string): (r: string)
    ensures r == baseUrl + LinkPath(gameId, participantId)
  {
    baseUrl + "/participant/" + gameId + "/" + participantId
  }

  /** One line of the all-links text: `${p.name}: ${link}`. */
  function LinkLine(baseUrl: string, gameId: string, p: Participant): (r: string)
    ensures StartsWith(r, p.name + ": ")
    ensures r[|p.name| + 2..] == ParticipantLink(baseUrl, gameId, p.id)
  {
    var r := p.name + ": " + ParticipantLink(baseUrl, gameId, p.id);
    assert r[..|p.name| + 2] == p.name + ": ";
    r
  }

  /** The lines of the all-links text, one per participant in roster order. */
  function LinkLines(baseUrl: string, game: Game): (r: seq<string>)
    ensures |r| == |game.participants|
    ensures forall k :: 0 <= k < |r| ==> r[k] == LinkLine(baseUrl, game.id, game.participants[k])
  {
    seq(|game.participants|, k requires 0 <= k < |game.participants| =>
      LinkLine(baseUrl, game.id, game.participants[k]))
  }

  /** `copyAllLinks`: the lines joined by line breaks. */
  function AllLinks(baseUrl: string, game: Game): (r: string)
    ensures |game.participants| == 0 ==> r == ""
    ensures |game.participants| >= 1 ==> StartsWith(r, LinkLine(baseUrl, game.id, game.participants[0]))
    ensures |game.participants| >= 1 ==> Count(r, '\n') >= |game.participants| - 1
  {
    Join(LinkLines(baseUrl, game), '\n')
  }

  /** When no name, id or origin holds a line break, the all-links text splits
      back into exactly one line per participant, in roster order. */
  lemma AllLinksLines(baseUrl: string, game: Game)
    requires |game.participants| >= 1
    requires '\n' !in baseUrl && '\n' !in game.id
    requires forall k :: 0 <= k < |game.participants| ==>
               '\n' !in game.participants[k].name && '\n' !in game.participants[k].id
    ensures Split(AllLinks(baseUrl, game), '\n') == LinkLines(baseUrl, game)
  {
    var lines := LinkLines(baseUrl, game);
    forall k | 0 <= k < |lines|
      ensures '\n' !in lines[k]
    {
      var p := game.participants[k];
      assert lines[k] == p.name + ": " + (baseUrl + "/participant/" + game.id + "/" + p.id);
    }
    SplitJoin(lines, '\n');
  }

  /** The link path of ids without `/` splits into the empty piece before
      the first `/`, `participant`, and the two ids. */
  lemma LinkPathSegments(gameId: string, participantId: string)
    requires '/' !in gameId && '/' !in participantId
    ensures Split(LinkPath(gameId, participantId), '/') == ["", "participant", gameId, participantId]
  {
    var word := "participant";
    assert '/' !in word;
    assert LinkPath(gameId, participantId) == [] + ['/'] + (word + ['/'] + (gameId + ['/'] + participantId));
    ThreeSegments(word, gameId, participantId, '/');
  }

  /** `/w/a/b` splits into the empty piece and the three separator-free words. */
  lemma ThreeSegments(w: string, a: string, b: string, sep: char)
    requires sep !in w && sep !in a && sep !in b
    ensures Split([] + [sep] + (w + [sep] + (a + [sep] + b)), sep) == ["", w, a, b]
  {
    var ab := a + [sep] + b;
    assert Split(ab, sep) == [a, b] by {
      SplitFirst(a, b, sep);
      SplitWithoutSeparator(b, sep);
    }
    var wab := w + [sep] + ab;
    SplitFirst(w, ab, sep);
    SplitFirst([], wab, sep);
  }

  /** A separator-free first piece splits off on its own. */
  lemma SplitFirst(a: string, rest: string, sep: char)
    requires sep !in a
    ensures Split(a + [sep] + rest, sep) == [a] + Split(rest, sep)
  {
    SplitAtSeparator(a, rest, sep);
    SplitWithoutSeparator(a, sep);
  }

  /** Round trip: the path of a participant link, given to the backend's
      router, selects the participant page of the same two ids. */
  lemma LinkRoutesBack(gameId: string, participantId: string)
    requires '/' !in gameId && '/' !in participantId
    ensures Backend.GetRoute(LinkPath(gameId, participantId)) == Backend.ParticipantPage(gameId, participantId)
  {
    LinkPathSegments(gameId, participantId);
  }

  /** The same round trip through a whole request, as the API client sends
      it: a GET whose `path` query parameter is the link path. */
  lemma LinkRequestRoutesBack(gameId: string, participantId: string, contextPath: Option<string>)
    requires '/' !in gameId && '/' !in participantId
    ensures var req := Backend.Request(Some("GET"), Some(LinkPath(gameId, participantId)), contextPath, None);
            Backend.Dispatch(req) == Backend.ParticipantPage(gameId, participantId)
  {
    LinkRoutesBack(gameId, participantId);
  }

  /** The whole request for a link path is answered by the participant
      answer of the same two ids: the game, the participant and its receiver
      as the backend looks them up. */
  lemma LinkRequestAnswered(gameId: string, participantId: string, db: Backend.Db)
    requires '/' !in gameId && '/' !in participantId
    ensures var req := Backend.Request(Some("GET"), Some(LinkPath(gameId, participantId)), None, None);
            Backend.Handle(req, db) == Backend.Answer(Backend.ParticipantAnswer(db, gameId, participantId), db)
  {
    LinkRoutesBack(gameId, participantId);
  }

  /** What the card of a participant says about the receiver. */
  datatype ReceiverNote = Hidden | Shown(receiverName: Option<string>)

  /** `{participant.receiverId && (... find(p => p.id === receiverId)?.name)}`:
      nothing when the receiver id is unset or empty, otherwise the name of the
      first participant with that id, which may be missing. */
  function NoteFor(ps: seq<Participant>, p: Participant): (r: ReceiverNote)
    ensures r.Shown? <==> p.receiverId.Some? && p.receiverId.value != ""
    ensures r.Shown? ==> (r.receiverName.Some? <==> exists k :: 0 <= k < |ps| && ps[k].id == p.receiverId.value)
    ensures r.Shown? && r.receiverName.Some? ==>
              exists q :: IsFirstMatch(ps, ParticipantId, p.receiverId.value, q) && q.name == r.receiverName.value
  {
    if p.receiverId.None? || p.receiverId.value == "" then Hidden
    else match FindParticipant(ps, p.receiverId.value)
      case None => Shown(None)
      case Some(q) => Shown(Some(q.name))
  }

  /** The note names the receiver the participant page resolves. */
  lemma NoteMatchesReceiver(ps: seq<Participant>, p: Participant)
    requires p.receiverId.Some? && p.receiverId.value != ""
    ensures NoteFor(ps, p) == Shown(match ReceiverOf(ps, Some(p))
                                    case None => None
                                    case Some(q) => Some(q.name))
  {
  }

  /** In a game created from distinct ids, every card shows a receiver, and
      the link of every participant routes back to its own page, which shows
      the game, the participant and the receiver the card names. */
  lemma CreatedGameLinksWork(games: seq<Game>, gameId: string, name: string, rules: string,
                             emoji: string, names: seq<string>, ids: seq<string>, c: seq<nat>, i: nat)
    requires |ids| == |names| && Shuffle.ValidChoices(c, |names|) && i < |names|
    requires Distinct(ids) && '/' !in gameId
    requires forall k :: 0 <= k < |ids| ==> |ids[k]| > 0 && '/' !in ids[k]
    requires forall k :: 0 <= k < |games| ==> games[k].id != gameId
    ensures var all := App.CreateGame(games, gameId, name, rules, emoji, names, ids, c);
            var g := all[|games|];
            var v := App.ParticipantRoute(all, gameId, ids[i]);
            && Backend.GetRoute(LinkPath(g.id, g.participants[i].id)) == Backend.ParticipantPage(gameId, ids[i])
            && v.participant == Some(g.participants[i])
            && v.receiver.Some?
            && NoteFor(g.participants, g.participants[i]) == Shown(Some(v.receiver.value.name))
  {
    var all := App.CreateGame(games, gameId, name, rules, emoji, names, ids, c);
    var g := all[|games|];
    LinkRoutesBack(gameId, ids[i]);
    App.CreatedGameParticipantPage(games, gameId, name, rules, emoji, names, ids, c, i);
    var p := g.participants[i];
    var v := App.ParticipantRoute(all, gameId, ids[i]);
    assert p.receiverId.value != "" by {
      var k :| 0 <= k < |g.participants| && g.participants[k] == v.receiver.value;
      assert g.participants[k].id == ids[k];
    }
    NoteMatchesReceiver(g.participants, p);
  }
}

=== FILE: roster.dfy ===
/** The roster parser of the game form in src/pages/CreateGame.tsx
    (`handleSubmit`): the participants text is split into lines, every line is
    trimmed, blank lines are dropped, and fewer than two remaining names stop
    the submission with an error. The React state, the toasts' wording and the
    page rendering are left out; what the handler does is returned as a list
    of effects. */
module Roster {
  import opened Strings

  /** Every line trimmed: `lines.map(p => p.trim())`. */
  function TrimAll(lines: seq<string>): (r: seq<string>)
    ensures |r| == |lines|
    ensures forall k :: 0 <= k < |r| ==> r[k] == Trim(lines[k])
  {
    seq(|lines|, k requires 0 <= k < |lines| => Trim(lines[k]))
  }

  /** The non-empty entries, in order: `entries.filter(p => p.length > 0)`. */
  function NonEmpty(entries: seq<string>): (r: seq<string>)
    ensures |r| <= |entries|
    ensures forall k :: 0 <= k < |r| ==> |r[k]| > 0
  {
    if |entries| == 0 then []
    else (if |entries[0]| > 0 then [entries[0]] else []) + NonEmpty(entries[1..])
  }

  /** The parsed names: the lines of the text, trimmed, blank ones dropped. */
  function ParseRoster(text: string): (r: seq<string>)
    ensures |r| <= Count(text, '\n') + 1
    ensures forall k :: 0 <= k < |r| ==> |r[k]| > 0 && IsTrimmed(r[k])
  {
    var trimmed := TrimAll(Split(text, '\n'));
    NonEmptyKeepsTrimmed(trimmed);
    NonEmpty(trimmed)
  }

  /** Filtering trimmed entries leaves trimmed entries. */
  lemma {:induction false} NonEmptyKeepsTrimmed(entries: seq<string>)
    requires forall k :: 0 <= k < |entries| ==> IsTrimmed(entries[k])
    ensures forall k :: 0 <= k < |NonEmpty(entries)| ==> IsTrimmed(NonEmpty(entries)[k])
    decreases |entries|
  {
    if |entries| > 0 {
      NonEmptyKeepsTrimmed(entries[1..]);
    }
  }

  /** Exactly the blank entries are dropped: a string is kept iff it is an
      entry and is not empty. */
  lemma {:induction false} NonEmptyMembers(entries: seq<string>, x: string)
    ensures x in NonEmpty(entries) <==> x in entries && |x| > 0
    decreases |entries|
  {
    if |entries| > 0 {
      NonEmptyMembers(entries[1..], x);
      assert entries == [entries[0]] + entries[1..];
    }
  }

  /** The filter acts on the two parts of a list independently. */
  lemma {:induction false} NonEmptyAppend(a: seq<string>, b: seq<string>)
    ensures NonEmpty(a + b) == NonEmpty(a) + NonEmpty(b)
    decreases |a|
  {
    if |a| == 0 {
      assert a + b == b;
    } else {
      assert (a + b)[0] == a[0];
      assert (a + b)[1..] == a[1..] + b;
      NonEmptyAppend(a[1..], b);
    }
  }

  /** A single line gives its trimmed text as the one entry, or nothing when
      it is blank. */
  lemma ParseSingleLine(line: string)
    requires '\n' !in line
    ensures ParseRoster(line) == if |Trim(line)| > 0 then [Trim(line)] else []
  {
    SplitWithoutSeparator(line, '\n');
    assert TrimAll([line]) == [Trim(line)];
    assert [Trim(line)][1..] == [];
  }

  /** Text made of two parts joined by a line break parses as the two parts
      one after the other: entries keep the order of their lines. */
  lemma ParseAppend(a: string, b: string)
    ensures ParseRoster(a + "\n" + b) == ParseRoster(a) + ParseRoster(b)
  {
    var la, lb := Split(a, '\n'), Split(b, '\n');
    assert a + "\n" + b == a + ['\n'] + b;
    SplitAtSeparator(a, b, '\n');
    TrimAllAppend(la, lb);
    NonEmptyAppend(TrimAll(la), TrimAll(lb));
  }

  /** Trimming acts on the two parts of a list independently. */
  lemma TrimAllAppend(a: seq<string>, b: seq<string>)
    ensures TrimAll(a + b) == TrimAll(a) + TrimAll(b)
  {
    var l, r := TrimAll(a + b), TrimAll(a) + TrimAll(b);
    forall k | 0 <= k < |l|
      ensures l[k] == r[k]
    {
      TrimAllAt(a, b, k);
    }
  }

  /** One position of `TrimAllAppend`. */
  lemma TrimAllAt(a: seq<string>, b: seq<string>, k: nat)
    requires k < |a| + |b|
    ensures TrimAll(a + b)[k] == (TrimAll(a) + TrimAll(b))[k]
  {
    var ta, tb := TrimAll(a), TrimAll(b);
    if k < |a| {
      assert (a + b)[k] == a[k];
      assert (ta + tb)[k] == ta[k] == Trim(a[k]);
    } else {
      assert (a + b)[k] == b[k - |a|];
      assert (ta + tb)[k] == tb[k - |a|] == Trim(b[k - |a|]);
    }
  }

  /** Parsing the lines of a text joined by line breaks keeps exactly the
      trimmed lines that are not blank, in their order. */
  lemma ParseLines(lines: seq<string>)
    requires |lines| >= 1
    requires forall k :: 0 <= k < |lines| ==> '\n' !in lines[k]
    ensures ParseRoster(Join(lines, '\n')) == NonEmpty(TrimAll(lines))
  {
    SplitJoin(lines, '\n');
  }

  /** Repeated names are not merged: the same name on two lines is two
      entries. */
  lemma DuplicatesKept(name: string)
    requires '\n' !in name && |name| > 0
    requires IsTrimmed(name)
    ensures ParseRoster(name + "\n" + name) == [name, name]
  {
    ParseAppend(name, name);
    TrimUntouched(name);
    ParseSingleLine(name);
  }

  /** A string without whitespace at either end is its own trim. */
  lemma TrimUntouched(s: string)
    requires IsTrimmed(s)
    ensures Trim(s) == s
  {
    assert TrimStart(s) == s;
  }

  /** What the submit handler does, in order. */
  datatype Effect =
    | ShowError                                    // the "at least 2 participants" toast
    | CallCreate(name: string, rules: string, participants: seq<string>, emoji: string)
    | ShowCreated(name: string, count: nat)        // the "game created" toast

  /** Number of `onCreate` calls among the effects. */
  function CreateCalls(effects: seq<Effect>): nat
  {
    if |effects| == 0 then 0
    else (if effects[0].CallCreate? then 1 else 0) + CreateCalls(effects[1..])
  }

  /** `handleSubmit`: with fewer than two parsed names only the error is
      shown; otherwise `onCreate` gets the form's fields and the names, and
      the success message reports how many names there were. */
  function HandleSubmit(name: string, rules: string, text: string, emoji: string): (r: seq<Effect>)
    ensures CreateCalls(r) == (if |ParseRoster(text)| < 2 then 0 else 1)
    ensures ShowError in r <==> |ParseRoster(text)| < 2
    ensures forall k :: 0 <= k < |r| && r[k].CallCreate? ==>
              r[k] == CallCreate(name, rules, ParseRoster(text), emoji) && |r[k].participants| >= 2
  {
    var participants := ParseRoster(text);
    if |participants| < 2 then Refused() else Accepted(name, rules, participants, emoji)
  }

  /** The effects of a refused submission: the error alone, no `onCreate` call. */
  function Refused(): (r: seq<Effect>)
    ensures CreateCalls(r) == 0 && ShowError in r
    ensures forall k :: 0 <= k < |r| ==> !r[k].CallCreate?
  {
    var r := [ShowError];
    assert CreateCalls(r[1..]) == 0 by {
      assert r[1..] == [];
    }
    r
  }

  /** The effects of an accepted submission: one `onCreate` call with the
      names, then the success message with their number. */
  function Accepted(name: string, rules: string, participants: seq<string>, emoji: string): (r: seq<Effect>)
    requires |participants| >= 2
    ensures CreateCalls(r) == 1 && ShowError !in r
    ensures forall k :: 0 <= k < |r| && r[k].CallCreate? ==>
              r[k] == CallCreate(name, rules, participants, emoji)
  {
    var r := [CallCreate(name, rules, participants, emoji), ShowCreated(name, |participants|)];
    assert CreateCalls(r[1..]) == 0 by {
      assert r[1..][1..] == [];
    }
    r
  }
}

=== FILE: shuffle.dfy ===
/** The Fisher–Yates shuffle of src/App.tsx (`shuffleArray`). The random
    draws are an explicit argument: `c[i]` is the index `j` drawn when the loop
    counter is `i`, so `c[i] <= i`; `c[0]` is never used. With the draws fixed
    the shuffle is a deterministic function, and the claims below hold for
    every admissible sequence of draws. */
module Shuffle {

  /** `c` is an admissible sequence of draws for a list of length `n`. */
  predicate ValidChoices(c: seq<nat>, n: nat)
  {
    |c| == n && forall i :: 0 <= i < n ==> c[i] <= i
  }

  /** `s` with the elements at `i` and `j` exchanged. */
  function Swap<T>(s: seq<T>, i: nat, j: nat): (r: seq<T>)
    requires i < |s| && j < |s|
    ensures |r| == |s| && r[i] == s[j] && r[j] == s[i]
    ensures forall k :: 0 <= k < |s| && k != i && k != j ==> r[k] == s[k]
    ensures multiset(r) == multiset(s)
  {
    s[i := s[j]][j := s[i]]
  }

  /** The loop of `shuffleArray` run for the counters `n-1` down to `1`,
      each step swapping position `i` with the drawn position `c[i]`. */
  function FisherYates<T>(s: seq<T>, c: seq<nat>, n: nat): (r: seq<T>)
    requires n <= |s| && n <= |c|
    requires forall i :: 0 <= i < n ==> c[i] <= i
    ensures |r| == |s|
    ensures multiset(r) == multiset(s)
    decreases n
  {
    if n <= 1 then s
    else FisherYates(Swap(s, n - 1, c[n - 1]), c, n - 1)
  }

  /** The result of shuffling `s` with the draws `c`. */
  function Shuffled<T>(s: seq<T>, c: seq<nat>): (r: seq<T>)
    requires ValidChoices(c, |s|)
    ensures |r| == |s| && multiset(r) == multiset(s)
  {
    FisherYates(s, c, |s|)
  }

  /** `shuffleArray`: copy the input into a fresh array, then for `i` from
      the last index down to 1 exchange the elements at `i` and at the drawn
      `c[i]`. The input is a value and is never changed. */
  method ShuffleArray<T>(input: seq<T>, c: seq<nat>) returns (r: seq<T>)
    requires ValidChoices(c, |input|)
    ensures r == Shuffled(input, c)
    ensures |r| == |input| && multiset(r) == multiset(input)
  {
    if |input| == 0 {
      return [];
    }
    var a := new T[|input|](k requires 0 <= k < |input| => input[k]);
    assert a[..] == input;
    var i := |input|;
    while i > 1
      invariant 0 <= i <= a.Length == |input|
      invariant FisherYates(a[..], c, i) == Shuffled(input, c)
    {
      i := i - 1;
      SwapInPlace(a, i, c[i]);
    }
    r := a[..];
  }

  /** Exchanges two elements of an array in place. */
  method SwapInPlace<T>(a: array<T>, i: nat, j: nat)
    requires i < a.Length && j < a.Length
    modifies a
    ensures a[..] == Swap(old(a[..]), i, j)
  {
    a[i], a[j] := a[j], a[i];
  }

  /** The shuffle reads only the draws for the counters it runs. */
  lemma {:induction false} FisherYatesReadsPrefix<T>(s: seq<T>, c: seq<nat>, d: seq<nat>, n: nat)
    requires n <= |s| && n <= |c| && n <= |d|
    requires forall i :: 0 <= i < n ==> c[i] <= i && d[i] == c[i]
    ensures forall i :: 0 <= i < n ==> d[i] <= i
    ensures FisherYates(s, c, n) == FisherYates(s, d, n)
    decreases n
  {
    if n > 1 {
      FisherYatesReadsPrefix(Swap(s, n - 1, c[n - 1]), c, d, n - 1);
    }
  }

  /** One backwards step of completeness: some draw `j <= i` puts the element
      `p` wants at position `i` there, leaving the shorter prefix to fix. */
  lemma PlaceLast<T>(cur: seq<T>, p: seq<T>, i: nat) returns (j: nat)
    requires |cur| == |p| && i < |cur|
    requires multiset(cur[..i + 1]) == multiset(p[..i + 1])
    requires cur[i + 1..] == p[i + 1..]
    ensures j <= i
    ensures multiset(Swap(cur, i, j)[..i]) == multiset(p[..i])
    ensures Swap(cur, i, j)[i..] == p[i..]
  {
    var k := i + 1;
    assert p[i] in multiset(cur[..k]) by {
      assert p[..k] == p[..i] + [p[i]];
    }
    j :| 0 <= j < k && cur[..k][j] == p[i];
    var next := Swap(cur, i, j);
    assert multiset(next[..i]) == multiset(p[..i]) by {
      assert p[..k] == p[..i] + [p[i]];
      assert next[..k] == next[..i] + [p[i]];
      assert multiset(next[..k]) == multiset(cur[..k]) by {
        assert next[..k] == Swap(cur[..k], i, j);
      }
      DropLast(next[..i], p[..i], p[i]);
    }
    assert next[i..] == p[i..] by {
      assert next[k..] == cur[k..];
      assert next[i..] == [p[i]] + next[k..];
      assert p[i..] == [p[i]] + p[k..];
    }
  }

  /** Equal multisets stay equal when the same last element is dropped. */
  lemma DropLast<T>(a: seq<T>, b: seq<T>, x: T)
    requires multiset(a + [x]) == multiset(b + [x])
    ensures multiset(a) == multiset(b)
  {
    calc {
      multiset(a);
      multiset(a + [x]) - multiset{x};
      multiset(b + [x]) - multiset{x};
      multiset(b);
    }
  }

  /** Completeness from a partly fixed state: when the first `k` positions of
      `cur` hold the same elements as those of `p` and the rest already agree,
      some draws for the counters below `k` turn `cur` into `p`. */
  lemma {:induction false} ReachableFrom<T>(cur: seq<T>, p: seq<T>, k: nat) returns (c: seq<nat>)
    requires |cur| == |p| && k <= |cur|
    requires multiset(cur[..k]) == multiset(p[..k])
    requires cur[k..] == p[k..]
    ensures ValidChoices(c, k)
    ensures FisherYates(cur, c, k) == p
    decreases k
  {
    if k <= 1 {
      assert cur == p by {
        if k == 1 {
          assert cur[0] in multiset(p[..1]);
          assert p[..1] == [p[0]];
        }
        assert cur == cur[..k] + cur[k..] && p == p[..k] + p[k..];
      }
      c := seq(k, i => 0);
    } else {
      var i := k - 1;
      var j := PlaceLast(cur, p, i);
      var c' := ReachableFrom(Swap(cur, i, j), p, i);
      c := c' + [j];
      ExtendChoices(cur, c', j, i);
    }
  }

  /** Adding the draw `j` for counter `i` in front of draws that already
      finish the job from the swapped state finishes it from `cur`. */
  lemma ExtendChoices<T>(cur: seq<T>, c': seq<nat>, j: nat, i: nat)
    requires i < |cur| && j <= i
    requires ValidChoices(c', i)
    ensures ValidChoices(c' + [j], i + 1)
    ensures FisherYates(cur, c' + [j], i + 1) == FisherYates(Swap(cur, i, j), c', i)
  {
    var c := c' + [j];
    forall x | 0 <= x < i + 1
      ensures c[x] <= x
    {
      if x < i {
        assert c[x] == c'[x];
      }
    }
    FisherYatesReadsPrefix(Swap(cur, i, j), c', c, i);
  }

  /** Every ordering of the input is produced by some admissible sequence of
      draws: the shuffle can reach every permutation. */
  lemma EveryOrderReachable<T>(s: seq<T>, p: seq<T>) returns (c: seq<nat>)
    requires multiset(p) == multiset(s)
    ensures ValidChoices(c, |s|)
    ensures Shuffled(s, c) == p
  {
    assert |p| == |multiset(p)| == |multiset(s)| == |s|;
    assert s[..|s|] == s && p[..|p|] == p;
    c := ReachableFrom(s, p, |s|);
  }
}

=== FILE: strings.dfy ===
/** The string primitives the application leans on, with the semantics of the
    languages it is written in: `split` with a one-character separator (the
    same in JavaScript and Python), `join`, JavaScript's `trim`, Python's
    `startswith` and `replace`. Strings are sequences of Unicode scalar
    values, so a JavaScript string holding a lone surrogate has no
    counterpart here. */
module Strings {

  /** Number of occurrences of `c` in `s`. */
  function Count(s: string, c: char): nat
  {
    if |s| == 0 then 0 else (if s[0] == c then 1 else 0) + Count(s[1..], c)
  }

  /** `s.split(sep)`: the maximal `sep`-free pieces between separators. An
      empty string gives one empty piece, and a separator at either end gives
      an empty piece there. */
  function Split(s: string, sep: char): (r: seq<string>)
    ensures |r| == Count(s, sep) + 1
    ensures forall k :: 0 <= k < |r| ==> sep !in r[k]
  {
    if |s| == 0 then [""]
    else
      var rest := Split(s[1..], sep);
      if s[0] == sep then [""] + rest
      else [[s[0]] + rest[0]] + rest[1..]
  }

  /** A string without the separator is a single piece. */
  lemma {:induction false} SplitWithoutSeparator(s: string, sep: char)
    requires sep !in s
    ensures Split(s, sep) == [s]
    decreases |s|
  {
    if |s| > 0 {
      assert sep !in s[1..];
      SplitWithoutSeparator(s[1..], sep);
      assert [s[0]] + s[1..] == s;
    }
  }

  /** `parts.join(sep)`: the parts with one separator between neighbours. */
  function Join(parts: seq<string>, sep: char): (r: string)
    ensures |parts| == 0 ==> r == ""
    ensures |parts| >= 1 ==> StartsWith(r, parts[0])
    ensures |parts| >= 1 ==> Count(r, sep) >= |parts| - 1
  {
    if |parts| == 0 then ""
    else if |parts| == 1 then parts[0]
    else
      var rest := Join(parts[1..], sep);
      CountAppend(parts[0] + [sep], rest, sep);
      CountAppend(parts[0], [sep], sep);
      assert (parts[0] + [sep] + rest)[..|parts[0]|] == parts[0];
      parts[0] + [sep] + rest
  }

  /** Occurrences in a concatenation add up. */
  lemma {:induction false} CountAppend(a: string, b: string, c: char)
    ensures Count(a + b, c) == Count(a, c) + Count(b, c)
    decreases |a|
  {
    if |a| > 0 {
      assert (a + b)[1..] == a[1..] + b;
      CountAppend(a[1..], b, c);
    } else {
      assert a + b == b;
    }
  }

  /** Splitting at a separator splits the two sides independently. */
  lemma {:induction false} SplitAtSeparator(a: string, b: string, sep: char)
    ensures Split(a + [sep] + b, sep) == Split(a, sep) + Split(b, sep)
    decreases |a|
  {
    var s := a + [sep] + b;
    if |a| == 0 {
      assert s[0] == sep && s[1..] == b;
    } else {
      SplitAtSeparator(a[1..], b, sep);
      var ra, rb := Split(a[1..], sep), Split(b, sep);
      assert Split(s[1..], sep) == ra + rb by {
        assert s[1..] == a[1..] + [sep] + b;
      }
      assert s[0] == a[0];
      if a[0] != sep {
        SplitJoinFirst(a[0], ra, rb);
      }
    }
  }

  /** Extending the first piece of a split commutes with appending pieces. */
  lemma SplitJoinFirst(c: char, ra: seq<string>, rb: seq<string>)
    requires |ra| >= 1
    ensures [[c] + (ra + rb)[0]] + (ra + rb)[1..] == ([[c] + ra[0]] + ra[1..]) + rb
  {
    assert (ra + rb)[1..] == ra[1..] + rb;
  }

  /** Joining the pieces of a split gives back the original string. */
  lemma {:induction false} JoinSplit(s: string, sep: char)
    ensures Join(Split(s, sep), sep) == s
    decreases |s|
  {
    if |s| > 0 {
      JoinSplit(s[1..], sep);
      var rest := Split(s[1..], sep);
      if s[0] == sep {
        assert s == [sep] + s[1..];
        assert ([""] + rest)[1..] == rest;
      } else {
        JoinCons(s[0], rest, sep);
      }
    }
  }

  /** Prepending a character to the first piece prepends it to the join. */
  lemma JoinCons(c: char, parts: seq<string>, sep: char)
    requires |parts| >= 1
    ensures Join([[c] + parts[0]] + parts[1..], sep) == [c] + Join(parts, sep)
  {
    var q := [[c] + parts[0]] + parts[1..];
    assert q[1..] == parts[1..];
  }

  /** Splitting a join of separator-free pieces gives back the pieces. */
  lemma {:induction false} SplitJoin(parts: seq<string>, sep: char)
    requires |parts| >= 1
    requires forall k :: 0 <= k < |parts| ==> sep !in parts[k]
    ensures Split(Join(parts, sep), sep) == parts
    decreases |parts|
  {
    if |parts| > 1 {
      SplitJoin(parts[1..], sep);
      SplitAtSeparator(parts[0], Join(parts[1..], sep), sep);
      SplitWithoutSeparator(parts[0], sep);
      assert [parts[0]] + parts[1..] == parts;
    } else {
      SplitWithoutSeparator(parts[0], sep);
    }
  }

  /** `s.startswith(prefix)` / `s.startsWith(prefix)`. */
  predicate StartsWith(s: string, prefix: string)
    ensures StartsWith(s, prefix) <==>
              |prefix| <= |s| && forall k :: 0 <= k < |prefix| ==> s[k] == prefix[k]
  {
    |prefix| <= |s| && s[..|prefix|] == prefix
  }

  /** A string starts with `prefix` iff it is `prefix` followed by something. */
  lemma StartsWithIsPrefix(s: string, prefix: string)
    ensures StartsWith(s, prefix) <==> exists t :: s == prefix + t
  {
    if StartsWith(s, prefix) {
      assert s == prefix + s[|prefix|..];
    }
    if exists t :: s == prefix + t {
      var t :| s == prefix + t;
      assert s[..|prefix|] == prefix;
    }
  }

  /** Python's `s.replace(pat, rep)` for a non-empty pattern: every
      occurrence, scanning left to right without overlap, is replaced. */
  function ReplaceAll(s: string, pat: string, rep: string): (r: string)
    requires |pat| > 0
    ensures pat[0] !in s ==> r == s
    decreases |s|
  {
    if |s| < |pat| then s
    else if s[..|pat|] == pat then rep + ReplaceAll(s[|pat|..], pat, rep)
    else [s[0]] + ReplaceAll(s[1..], pat, rep)
  }

  /** The characters JavaScript's `trim` removes: the WhiteSpace and
      LineTerminator code points of the ECMAScript grammar. */
  predicate IsWhitespace(c: char)
    // Within ASCII: exactly space, tab, line feed, vertical tab, form feed, carriage return.
    ensures c < '\U{80}' ==> (IsWhitespace(c) <==> c == ' ' || '\t' <= c <= '\r')
    ensures '0' <= c <= '9' || 'A' <= c <= 'Z' || 'a' <= c <= 'z' ==> !IsWhitespace(c)
    ensures IsWhitespace(c) ==> c <= '\U{FEFF}'
  {
    || c == '\U{9}' || c == '\U{A}' || c == '\U{B}' || c == '\U{C}' || c == '\U{D}'
    || c == '\U{20}' || c == '\U{A0}' || c == '\U{1680}'
    || ('\U{2000}' <= c <= '\U{200A}')
    || c == '\U{2028}' || c == '\U{2029}' || c == '\U{202F}' || c == '\U{205F}'
    || c == '\U{3000}' || c == '\U{FEFF}'
  }

  /** `s` with its leading whitespace removed. */
  function TrimStart(s: string): (r: string)
    ensures |r| <= |s| && r == s[|s| - |r|..]
    ensures forall k :: 0 <= k < |s| - |r| ==> IsWhitespace(s[k])
    ensures r == [] || !IsWhitespace(r[0])
  {
    if |s| > 0 && IsWhitespace(s[0]) then TrimStart(s[1..]) else s
  }

  /** `s` with its trailing whitespace removed. */
  function TrimEnd(s: string): (r: string)
    ensures |r| <= |s| && r == s[..|r|]
    ensures forall k :: |r| <= k < |s| ==> IsWhitespace(s[k])
    ensures r == [] || !IsWhitespace(r[|r| - 1])
  {
    if |s| > 0 && IsWhitespace(s[|s| - 1]) then TrimEnd(s[..|s| - 1]) else s
  }

  /** `s` neither starts nor ends with whitespace. */
  predicate IsTrimmed(s: string)
  {
    s == [] || (!IsWhitespace(s[0]) && !IsWhitespace(s[|s| - 1]))
  }

  /** `s.trim()`: `s` without its leading and trailing whitespace. */
  function Trim(s: string): (r: string)
    ensures |r| <= |s|
    ensures IsTrimmed(r)
  {
    TrimEnd(TrimStart(s))
  }

  /** The trimmed string is the part of `s` between a whitespace-only prefix
      and a whitespace-only suffix. */
  lemma TrimIsInfix(s: string) returns (i: nat, j: nat)
    ensures i <= j <= |s| && Trim(s) == s[i..j]
    ensures forall k :: 0 <= k < i ==> IsWhitespace(s[k])
    ensures forall k :: j <= k < |s| ==> IsWhitespace(s[k])
  {
    var t := TrimStart(s);
    var r := TrimEnd(t);
    i := |s| - |t|;
    j := i + |r|;
    assert t == s[i..];
    assert r == t[..|r|];
    assert Trim(s) == s[i..j] by {
      assert s[i..][..|r|] == s[i..j];
    }
    forall k | j <= k < |s|
      ensures IsWhitespace(s[k])
    {
      assert s[k] == t[k - i];
    }
  }

  /** Trimming an already trimmed string changes nothing. */
  lemma TrimIdempotent(s: string)
    ensures Trim(Trim(s)) == Trim(s)
  {
    var t := Trim(s);
    assert TrimStart(t) == t;
  }
}

=== FILE: types.dfy ===
/** The records every part of the application shares: the Participant and
    Game shapes of src/types/game.ts, an Option for the fields and lookups
    that may be missing, and the first-match searches (`Array.find` in the
    front end, `next(...)` in the backend) that all lookups go through. */
module Types {

  /** A value that may be absent: `undefined`/`null` in TypeScript, `None` in Python. */
  datatype Option<+T> = None | Some(value: T)

  /** One entrant of a game. `receiverId` is the id of the participant this
      one gives a present to; it is unset until an assignment is made. */
  datatype Participant = Participant(id: string, name: string, receiverId: Option<string>)

  /** A game. The creation timestamp is left out of the model. */
  datatype Game = Game(id: string, name: string, rules: string, emoji: string,
                       participants: seq<Participant>)

  /** The ids of a roster, in roster order. */
  function Ids(ps: seq<Participant>): (r: seq<string>)
    ensures |r| == |ps|
    ensures forall i :: 0 <= i < |ps| ==> r[i] == ps[i].id
  {
    seq(|ps|, i requires 0 <= i < |ps| => ps[i].id)
  }

  /** No string occurs twice in `s`. */
  ghost predicate Distinct(s: seq<string>)
  {
    forall i, j :: 0 <= i < |s| && 0 <= j < |s| && i != j ==> s[i] != s[j]
  }

  /** No two participants of the roster share an id. */
  ghost predicate DistinctIds(ps: seq<Participant>)
  {
    Distinct(Ids(ps))
  }

  /** The id of a participant, as a key for the searches. */
  function ParticipantId(p: Participant): string { p.id }

  /** The id of a game, as a key for the searches. */
  function GameId(g: Game): string { g.id }

  /** `x` is the first element of `s` whose key is `id`. */
  ghost predicate IsFirstMatch<T>(s: seq<T>, key: T -> string, id: string, x: T)
  {
    exists k :: 0 <= k < |s| && s[k] == x && key(x) == id && forall m :: 0 <= m < k ==> key(s[m]) != id
  }

  /** Index of the first element of `s` whose key is `id`. */
  function IndexOf<T>(s: seq<T>, key: T -> string, id: string): (r: Option<nat>)
    ensures r.Some? ==> r.value < |s| && key(s[r.value]) == id
    ensures r.Some? ==> forall k :: 0 <= k < r.value ==> key(s[k]) != id
    ensures r.None? <==> forall k :: 0 <= k < |s| ==> key(s[k]) != id
  {
    if |s| == 0 then None
    else if key(s[0]) == id then Some(0)
    else match IndexOf(s[1..], key, id)
      case None => None
      case Some(k) => Some(k + 1)
  }

  /** The first element of `s` whose key is `id`: `Array.find` with an id
      test in the front end, `next(...)` over a generator in the backend. */
  function Find<T>(s: seq<T>, key: T -> string, id: string): (r: Option<T>)
    ensures r.Some? <==> exists k :: 0 <= k < |s| && key(s[k]) == id
    ensures r.Some? ==> r.value in s && key(r.value) == id
    ensures r.Some? ==> IsFirstMatch(s, key, id, r.value)
  {
    match IndexOf(s, key, id)
    case None => None
    case Some(k) => Some(s[k])
  }

  /** `participants.find(p => p.id === id)`: the first participant with that id. */
  function FindParticipant(ps: seq<Participant>, id: string): (r: Option<Participant>)
    ensures r.Some? <==> exists k :: 0 <= k < |ps| && ps[k].id == id
    ensures r.Some? ==> r.value in ps && r.value.id == id
    ensures r.Some? ==> IsFirstMatch(ps, ParticipantId, id, r.value)
  {
    Find(ps, ParticipantId, id)
  }

  /** `games.find(g => g.id === id)`: the first game with that id. */
  function FindGame(games: seq<Game>, id: string): (r: Option<Game>)
    ensures r.Some? <==> exists k :: 0 <= k < |games| && games[k].id == id
    ensures r.Some? ==> r.value in games && r.value.id == id
    ensures r.Some? ==> IsFirstMatch(games, GameId, id, r.value)
  {
    Find(games, GameId, id)
  }

  /** The receiver of `giver` within roster `ps`: nothing when there is no
      giver or it has no receiver id, otherwise the first participant whose id
      is the giver's receiver id. Both the front end and the backend resolve
      receivers this way. */
  function ReceiverOf(ps: seq<Participant>, giver: Option<Participant>): (r: Option<Participant>)
    ensures r.Some? <==> giver.Some? && giver.value.receiverId.Some?
                         && exists k :: 0 <= k < |ps| && ps[k].id == giver.value.receiverId.value
    ensures r.Some? ==> r.value in ps && Some(r.value.id) == giver.value.receiverId
    ensures r.Some? ==> IsFirstMatch(ps, ParticipantId, giver.value.receiverId.value, r.value)
  {
    if giver.None? then None
    else match giver.value.receiverId
      case None => None
      case Some(rid) => FindParticipant(ps, rid)
  }

  /** A game appended under an id no earlier game has is the one found for that id. */
  lemma FindAppendedGame(games: seq<Game>, g: Game)
    requires forall k :: 0 <= k < |games| ==> games[k].id != g.id
    ensures FindGame(games + [g], g.id) == Some(g)
  {
    var all := games + [g];
    var r := IndexOf(all, GameId, g.id);
    assert GameId(all[|games|]) == g.id;
    assert r.Some?;
    assert forall k :: 0 <= k < |games| ==> GameId(all[k]) != g.id;
  }

  /** With distinct ids, the participant found for an id is the one at its position. */
  lemma FindDistinct(ps: seq<Participant>, i: nat)
    requires DistinctIds(ps)
    requires i < |ps|
    ensures FindParticipant(ps, ps[i].id) == Some(ps[i])
  {
    var r := IndexOf(ps, ParticipantId, ps[i].id);
    assert ParticipantId(ps[i]) == ps[i].id;
    assert r.Some?;
  }
}
